=== FILE: README.md ===
# THE LION BETS: the Telegram command front end, in Dafny

This project models the command handling of `bot_logic.py`:

- `handle_update` routes a message. The text is stripped and lower-cased, and
  `/start` is tested before `/apuesta`. For `/apuesta`, the words after the
  first are passed on.
- `handle_start` sends the welcome text.
- `handle_apuesta` runs these steps in order:
  1. the client check;
  2. the argument count;
  3. the bet type (upper-cased, SIMPLE or COMBI);
  4. `str.format` on the selected prompt;
  5. the processing notice;
  6. the guarded part: the model request and the reply in MarkdownV2, with
     the error report when either raises.
- `send_message` makes one attempt with a parse mode. If that raises, it
  makes exactly one attempt without a parse mode, and nothing catches that
  second attempt's exception.

A handler is a pure function from an update and an environment to a `Run`:
the send attempts and model requests it made, in order, and the exception
that escapes it, if any. The environment `Env` holds three things:

- whether the Gemini client exists;
- what the model answers for a prompt;
- whether each send attempt goes through, with attempts numbered from 0.

Python's `str.format` is modelled for keyword arguments. The model scans
literal text, `{{`/`}}` escapes and replacement fields, then looks up each
field. As in CPython, a failed lookup of an earlier field is reported before a
brace error further on. The two prompts are kept as their sequences of
literal text and fields. Their prose is abbreviated, but the fields and their
order are exact.

Modules:

- `Wrappers`: `Option`, `Result`.
- `Text`: Python's `strip`, `split`, `join`, and `lower`/`upper` as far as the
  command words need them. Whitespace is the exact `str.isspace` set.
- `Format`: `str.format`.
- `Prompts`: PROMPT_SIMPLE and PROMPT_COMBI, and what `format` makes of each.
- `Bot`: the handlers.
- `BotProperties`: what the handlers guarantee.

How the code behaves at its edges, as the model follows it:

- The second bet type is spelled COMBI.
- `handle_apuesta` checks for the client before it counts the arguments.
- Exceptions are caught only inside the `try` at lines 165-177. Any send
  outside it that is refused twice escapes the handler: the configuration,
  usage and unknown-type replies (lines 137, 141 and 154), the processing
  notice (line 162), and the welcome text of `handle_start` (line 130). So
  do the `format` error (line 157) and an error report refused twice
  (line 177).
- `/apuesta COMBI …` always stops with `KeyError` (see Findings).

## Model

| member | source | states |
|---|---|---|
| Text.Strip | bot_logic.py:183 | `strip()` leaves `s` minus whitespace on both sides. The result has no whitespace at either end, and is empty exactly when `s` is all whitespace. |
| Text.StripPieces | bot_logic.py:183 | The text is the leading whitespace, then the stripped text, then the trailing whitespace. |
| Text.Split | bot_logic.py:191 | Every token of `split()` is a non-empty word without whitespace. There are no tokens exactly when the text is all whitespace. `Text.SplitSpaced` and `Text.SplitSpacing` fix which tokens they are. |
| Text.SplitOfStrip | bot_logic.py:183-191 | Splitting the stripped text gives the same tokens as splitting the raw text. |
| Text.SplitJoin | bot_logic.py:191-192 | Words joined by one repeated whitespace separator split back into the same words. |
| Text.SplitSpaced | bot_logic.py:191-192 | Words laid out with whitespace before, between and after them split back into exactly those words. Each gap may have any length and mix of whitespace, but gaps between words are non-empty. |
| Text.SplitSpacing | bot_logic.py:191 | Every text is such a layout of its own `split()`, with the leading whitespace as the first gap. Together with `Text.SplitSpaced`, this fixes the tokens: they are the maximal non-whitespace runs, in order. |
| Text.StripPadded | bot_logic.py:183 | Whitespace on either side of a text that neither begins nor ends with whitespace is exactly what `strip()` removes. |
| Text.LowerStartsWith | bot_logic.py:186-189 | A text begins with `p` after `lower()` exactly when its first characters lower-case, one by one, to `p`. |
| Text.Lower | bot_logic.py:186-189 | `lower()`: the same length, each character lower-cased on its own. `Text.LowerStartsWith` states what this means for the prefix tests. |
| Text.Upper | bot_logic.py:145 | `upper()`: the same length, each character upper-cased on its own. `Text.UpperMatches` states which words become SIMPLE or COMBI. |
| Text.UpperMatches | bot_logic.py:145-151 | `upper()` of a word equals an upper-case ASCII word exactly when each character is that letter in either case, or a dotless i for I, or a long s for S. |
| Format.Scan | bot_logic.py:157 | The scanned pieces alternate literal text and fields. The only error scanning reports is `ValueError`. `Format.RenderScan` and `Format.ScanStopsAt` fix which pieces they are. |
| Format.ScanStopsAt | bot_logic.py:157 | A scan that stops at a brace error keeps exactly the text before it: its pieces render to the prefix that ends where the first brace error begins. |
| Format.ScanRender | bot_logic.py:157 | A template written out as a format string scans back to the same pieces, without error. |
| Format.RenderScan | bot_logic.py:157 | A format string that scans without error is the rendering of its pieces. |
| Format.Lookup | bot_logic.py:157-160 | A plain field name gets its keyword's value when there is one, and `KeyError` of that name when there is not. |
| Format.Substitute | bot_logic.py:157-160 | Fills the fields left to right. `Format.SubstituteOk` says when it succeeds, `Format.SubstituteFirstError` which error it reports, and `Format.SubstituteAppend` how it splits over a concatenation. |
| Format.SubstituteOk | bot_logic.py:157-160 | Filling in succeeds exactly when every piece resolves. |
| Format.SubstituteFirstError | bot_logic.py:157-160 | A failed fill reports the error of the first piece that does not resolve. |
| Format.SubstituteAppend | bot_logic.py:157-160 | Filling in two templates one after the other: the left error wins, then the right error, otherwise the outputs are concatenated. |
| Format.FormatString | bot_logic.py:157 | Left to right: when a field before the first brace error fails to resolve, that lookup error is the result. When every field before a brace error resolves, the result is `ValueError`. Without brace errors, `format` is the fill of the scanned pieces. |
| Format.FormatRendered | bot_logic.py:157 | Formatting a rendered template is filling in its pieces. |
| Format.FormatEscaped | bot_logic.py:157 | Text written with doubled braces formats to itself. |
| Prompts.TemplatesNormal | bot_logic.py:31-97 | Both prompts, and the corrected PROMPT_COMBI, are well-formed format strings. |
| Prompts.SimpleFields | bot_logic.py:34 | PROMPT_SIMPLE has one field, `FECHA_OBJETIVO`. |
| Prompts.CombiFields | bot_logic.py:72-89 | PROMPT_COMBI's fields are, in order: `FECHA_OBJETIVO`, `CUOTA_OBJETIVO`, `CUOTA\_OBJETIVO`, `FECHA\_OBJETIVO`. |
| Prompts.KeywordsResolve | bot_logic.py:157-160 | The two keyword names resolve to the date and the odds. The backslashed name gives `KeyError`. |
| Prompts.FormatSucceedsIff | bot_logic.py:157-160 | Formatting a prompt with the handler's keywords succeeds exactly when every field name is one of the two keywords. |
| Prompts.SimpleFormats | bot_logic.py:31-67 | PROMPT_SIMPLE formats to its text with the date in place of the field. |
| Prompts.CombiFormatFails | bot_logic.py:87 | PROMPT_COMBI as written fails to format with `KeyError('CUOTA\\_OBJETIVO')`, whatever the date and odds. |
| Prompts.CombiIntendedFormats | bot_logic.py:69-97 | The corrected PROMPT_COMBI formats with the date and odds at lines 72, 87 and 89. |
| Bot.SendMessage | bot_logic.py:106-112 | The first attempt has the requested mode. There is a second, plain attempt with the same text exactly when the first is refused. The call raises exactly when no attempt goes through, and then with the last attempt's error. |
| Bot.RouteOf | bot_logic.py:180-193 | A message with non-empty text goes to `/start` exactly when its stripped, lower-cased text begins with `/start`, with the sender's first name. It goes to `/apuesta` exactly when that text begins with `/apuesta` and not `/start`, with whitespace-free words as arguments. Anything else is ignored. |
| Bot.AfterCommand | bot_logic.py:192 | `parts[1:]`: what follows the first part, and nothing for no parts. |
| Bot.SelectPrompt | bot_logic.py:149-155 | A prompt is selected exactly for SIMPLE and COMBI, and it is that type's prompt. |
| Bot.HandleStart | bot_logic.py:114-130 | `handle_start`: one `send_message` of the welcome text with HTML. `BotProperties.StartWelcomes` and `BotProperties.StartIgnoresConfiguration` state its behaviour. |
| Bot.HandleApuesta | bot_logic.py:132-177 | `handle_apuesta`: the client check, the argument count, the bet type, `format`, then the analysis. `BotProperties.ApuestaShape`, `BotProperties.ApuestaFormats`, `BotProperties.ApuestaRefusedEarly` and the lemmas after them state its behaviour. |
| Bot.Analyse | bot_logic.py:162-177 | The processing notice outside the `try`, then the guarded part. `BotProperties.AnalyseShape`, `BotProperties.AnalyseDelivered`, `BotProperties.AnalyseNoticeLost` and `BotProperties.AnalyseReplyRefused` state its behaviour. |
| Bot.Guarded | bot_logic.py:165-177 | The `try` block: the model request, the answer in MarkdownV2, and the error report when either raises. `BotProperties.GuardedShape` and `BotProperties.GuardedReplyRefused` state its behaviour. |
| Bot.Report | bot_logic.py:175-177 | The `except` branch: the error report with HTML, not itself guarded. `BotProperties.ReportShape` states its behaviour. |
| Bot.HandleUpdateWith | bot_logic.py:180-193 | `handle_update` over a given pair of prompts: the route, then the handler it names. `BotProperties.UpdateShape`, `BotProperties.SilentIffIgnored` and `BotProperties.StartWelcomes` state its behaviour. |
| Bot.HandleUpdate | bot_logic.py:180-193 | `handle_update` with the prompts as written. `BotProperties.UpdateRequests`, `BotProperties.UpdateSimple` and `BotProperties.ScenarioCombi` state its behaviour. |
| BotProperties.SendMessageShape | bot_logic.py:106-112 | `send_message` only sends its text, requests nothing, and every plain attempt repeats the attempt before it. |
| BotProperties.SendMessageFails | bot_logic.py:106-112 | `send_message` raises exactly when both attempts are refused, with the second refusal's error. |
| BotProperties.ReplyOnly | bot_logic.py:106-112 | A one-message reply is exactly one `send_message` call: the HTML attempt, plus a plain resend exactly when that attempt is refused. It never asks the model, and it raises exactly when both attempts are refused. |
| BotProperties.StartWelcomes | bot_logic.py:114-130 | `/start` is exactly one `send_message` call of the welcome text with HTML, and never asks the model. The welcome contains the sender's first name. |
| BotProperties.StartIgnoresConfiguration | bot_logic.py:114-130 | `/start` behaves the same whether or not the client exists, and whatever the prompts. |
| BotProperties.UnconfiguredRefuses | bot_logic.py:136-138 | Without a client, `/apuesta` is exactly one `send_message` call of the configuration error, and never asks the model. |
| BotProperties.WrongArityRefuses | bot_logic.py:140-143 | With a client and other than three arguments, `/apuesta` is exactly one `send_message` call of the usage text, and never asks the model. |
| BotProperties.KindSpelled | bot_logic.py:145-152 | The upper-cased type is SIMPLE (or COMBI) exactly when the typed word spells it. |
| BotProperties.KindAccepted | bot_logic.py:145-155 | A prompt is selected exactly when the typed word spells SIMPLE or COMBI. |
| BotProperties.UnknownKindRefuses | bot_logic.py:153-155 | Any other type gets exactly one `send_message` call of the message naming the upper-cased type, and the model is never asked. |
| BotProperties.ApuestaFormatRaises | bot_logic.py:157-160 | When `format` fails, its error escapes before anything is sent. |
| BotProperties.ApuestaFormats | bot_logic.py:157-170 | When `format` succeeds, the first send is the processing notice with the upper-cased type, the date and the odds. The model is asked for the formatted prompt exactly when that notice gets through, and only a send can escape. |
| BotProperties.ApuestaSimple | bot_logic.py:149-163 | For SIMPLE, the analysis runs with PROMPT_SIMPLE's date filled in. |
| BotProperties.ApuestaCombiRaises | bot_logic.py:151-160 | For COMBI, with the prompts as written, `KeyError('CUOTA\\_OBJETIVO')` escapes and nothing is sent. |
| BotProperties.ApuestaCombiIntended | bot_logic.py:151-163 | For COMBI, with the corrected prompt, the analysis runs with both fields filled in twice. |
| BotProperties.AnalyseShape | bot_logic.py:162-177 | The run starts with the processing notice. It asks the model once, for the prompt, exactly when the notice gets through. Every plain resend directly follows an attempt of the same text with a parse mode. Only a send error escapes, and then the last two calls are such an attempt and its plain resend. |
| BotProperties.GuardedShape | bot_logic.py:165-177 | The guarded part asks nothing more of the model, and every plain resend directly follows an attempt of the same text with a parse mode. Only a send error escapes, right after such a resend. |
| BotProperties.AnalyseDelivered | bot_logic.py:162-177 | When every send goes through, the run is the notice, the request, then the answer in MarkdownV2. If the request raises instead, the last send is the error report in HTML. |
| BotProperties.AnalyseNoticeLost | bot_logic.py:162-163 | A notice refused twice ends the command. The model is never asked, and the second refusal escapes. |
| BotProperties.AnalyseReplyRefused | bot_logic.py:162-177 | Whether the notice got through on its first attempt or on the resend: an answer refused in MarkdownV2 and as plain text is followed by the error report in HTML, carrying the plain attempt's error. The run raises exactly when the report is refused twice too. |
| BotProperties.GuardedReplyRefused | bot_logic.py:173-177 | From any attempt number: a reply refused twice is followed by the error report for the second refusal, sent from the next attempt number on. |
| BotProperties.GuardedAnswer | bot_logic.py:165-177 | From any attempt number: when the model answers, the next call is the answer in MarkdownV2. When the request raises, the rest is the error report with that exception's detail. |
| BotProperties.ErrorNames | bot_logic.py:175 | The error report quotes the exception's detail. |
| BotProperties.AnalyseAnswer | bot_logic.py:162-177 | However the notice got through, the notice's attempts are followed by the request. The call after the request is the answer in MarkdownV2, or, when the request raises, the error report in HTML, which quotes the detail. |
| BotProperties.ReportShape | bot_logic.py:175-177 | The error report is one HTML send of the error text after the earlier calls, and it raises exactly when both of its attempts are refused. |
| BotProperties.AnalyseRequests | bot_logic.py:162-170 | The analysis asks the model for its prompt exactly when the notice gets through, and asks nothing otherwise. |
| BotProperties.ApuestaRefusedEarly | bot_logic.py:136-143 | Without a client, or with other than three arguments, the model is never asked. |
| BotProperties.ApuestaShape | bot_logic.py:132-177 | `/apuesta` asks the model at most once. Every plain resend directly follows an attempt of the same text with a parse mode. A send error that escapes comes right after such a resend. A `format` error escapes with nothing sent. |
| BotProperties.ApuestaRequests | bot_logic.py:132-170 | With the prompts as written, the model is asked exactly for SIMPLE, with a client, three arguments and the notice delivered, and then for PROMPT_SIMPLE with the date. |
| BotProperties.ApuestaSimpleRequests | bot_logic.py:149-170 | For SIMPLE, the model is asked for PROMPT_SIMPLE with the date exactly when the notice gets through. |
| BotProperties.ApuestaRequestsIntended | bot_logic.py:132-170 | With the corrected prompt, COMBI also asks the model, for PROMPT_COMBI with both values filled in. |
| BotProperties.ApuestaCombiRequests | bot_logic.py:151-170 | For COMBI with the corrected prompt, the model is asked exactly when the notice gets through. |
| BotProperties.ApuestaNotSilent | bot_logic.py:132-177 | `/apuesta` never ends without either a call or an exception. |
| BotProperties.SilentIffIgnored | bot_logic.py:180-193 | An update gets no call and no exception exactly when it is neither `/start` nor `/apuesta`. |
| BotProperties.UpdateShape | bot_logic.py:180-193 | For any update: at most one model request, and every plain resend directly follows an attempt of the same text with a parse mode. A send error that escapes comes right after such a resend. |
| BotProperties.UpdateRequests | bot_logic.py:180-193 | With the prompts as written, an update asks the model exactly when it is `/apuesta` with a client, three arguments, a type that spells SIMPLE, and the notice delivered. |
| BotProperties.RouteOfApuesta | bot_logic.py:182-193 | Non-empty text whose stripped, lower-cased form begins with `/apuesta` and not `/start` goes to `handle_apuesta` with the split words after the first. |
| BotProperties.RouteOfCommand | bot_logic.py:182-193 | `/apuesta` followed by words, one space apart, goes to `handle_apuesta` with exactly those words. |
| BotProperties.CommandRead | bot_logic.py:191-192 | The words after the first in such a command are its arguments. |
| BotProperties.CommandPrefix | bot_logic.py:186-189 | A text beginning with `/apuesta` in any letter case is not taken for `/start`. |
| BotProperties.UpdateSimple | bot_logic.py:180-193 | `/apuesta SIMPLE <date> <odds>` with a client reaches the analysis with PROMPT_SIMPLE's date filled in. |
| BotProperties.ScenarioSimple | bot_logic.py:124 | The command in the welcome text's SIMPLE example, for any date and odds, with everything delivered: the notice, the request for PROMPT_SIMPLE with the date, and the answer in MarkdownV2. |
| BotProperties.ScenarioCombi | bot_logic.py:126 | The welcome text's COMBI example raises `KeyError('CUOTA\\_OBJETIVO')` and sends nothing. |
| BotProperties.UpdateCombiIntended | bot_logic.py:180-193 | With the corrected prompt, `/apuesta COMBI <date> <odds>` reaches the analysis with both values filled in. |
| BotProperties.ScenarioCombiIntended | bot_logic.py:126 | With the corrected prompt, the COMBI example runs like SIMPLE: notice, request, answer. |
| BotProperties.ScenarioBareCommand | bot_logic.py:140-143 | A bare `/apuesta` gets exactly one `send_message` call of the usage text. |
| BotProperties.CommandText | bot_logic.py:191-192 | A command with three arguments is `/apuesta`, then the three words, one space apart. |
| BotProperties.ScenarioStart | bot_logic.py:183-187 | `/START` and `/startxyz` both go to `handle_start`, because the test is a case-insensitive prefix test. It follows from `BotProperties.RouteOfStart`. |
| BotProperties.RouteOfStart | bot_logic.py:182-187 | Non-empty text whose stripped, lower-cased form begins with `/start` goes to `handle_start` with the sender's first name. |
| BotProperties.ScenarioStartPadded | bot_logic.py:182-187 | A `/Start` command with a leading space and a trailing newline reaches `handle_start`, because the text is stripped before the prefix test. |

## Findings

| source | as written | input that shows it | evidently intended | confidence | as-written member | corrected member |
|---|---|---|---|---|---|---|
| bot_logic.py:87-89 | PROMPT_COMBI, a raw string, writes its last two fields as `{CUOTA\_OBJETIVO}` and `{FECHA\_OBJETIVO}`. The field names include the backslash, so `format(FECHA_OBJETIVO=…, CUOTA_OBJETIVO=…)` at line 157 raises `KeyError('CUOTA\\_OBJETIVO')` outside the `try`. No reply is sent. | `/apuesta COMBI 21/10/2025 1.30`, the example of the welcome text | the fields named `CUOTA_OBJETIVO` and `FECHA_OBJETIVO`, so the odds and the date are filled in | not executed | Prompts.CombiFormatFails, BotProperties.ApuestaCombiRaises, BotProperties.ScenarioCombi | Prompts.CombiIntendedFormats, BotProperties.ApuestaCombiIntended, BotProperties.ScenarioCombiIntended, BotProperties.ApuestaRequestsIntended |

The handlers are written over a pair of prompts `p`. `HandleUpdate` uses the
prompts as written, and `IntendedPrompts` holds the corrected PROMPT_COMBI.

## Left out

- main.py is not part of this model: the web server, the webhook, and the acknowledgement of every delivery.
- The client is created at import time, and the model reduces that to `Env.configured`.
- Network calls (`bot.send_message`, `generate_content`) are oracles in `Env`. The model identifier and `async` scheduling are not modelled.
- The prose of the prompts is abbreviated to "…". Their fields and field order are exact.
- The welcome text and the other reply texts are exact.
- Format.Lookup: conversions (`!r`), format specs (`:>10`), and attribute or index access are not evaluated; such a field is reported as `Unsupported`. Neither prompt uses them.
- Format.Scan: a field ends at the first `}` after its `{`, and a `{` inside a field is a `ValueError`. CPython differs here: it reads `{x:{y}}` as the field `x` with a nested field in its format spec, and it does not end a field at a `}` inside `[...]`, as in `{a[}]}`. Neither prompt has such a field.
- Format.Positional: only ASCII digits make a field positional. CPython also reads other Unicode decimal digits, such as `{٣}`, as a position, and gives `IndexError` where the model gives `KeyError`. CPython also refuses a position with too many digits, such as `{99999999999999999999}`, with `ValueError` ("Too many decimal digits in format string"); the model's positions are unbounded, so it gives `IndexError`. Neither prompt has a positional field.
- Text.Lower: only ASCII letters are lower-cased. This is exact for the `/start` and `/apuesta` prefix tests, whose letters no other character lower-cases to.
- Text.Upper: only ASCII letters, the dotless i and the long s are upper-cased. This is exact for comparison with SIMPLE and COMBI. The upper-cased type quoted back in the "not recognised" message is exact only for such words.
- `response.text` being `None`, and Telegram's rules for which MarkdownV2 text it rejects, are not modelled. Each send attempt's outcome is an oracle.
- `update.effective_user` and `update.effective_chat` are taken to be the message's sender and chat, as Telegram sets them for a message update.
- Logging, and the exception text rendered by `{e}`, are not modelled. The model carries the error detail as a string.

=== FILE: bot.dfy ===
/**
 The Telegram command front end: routing an update, the `/start` and
 `/apuesta` handlers, and the send helper with its plain-text fallback.

 A handler is a function from the update and an environment to the run it
 produces: the calls it makes (message send attempts and the one request to
 the language model) and the exception, if any, that escapes it. The
 environment stands in for everything outside the bot: whether the model
 client was created, what the model answers, and whether each send attempt,
 numbered from 0 in the order they are made, goes through.
 */
module Bot {
  import opened Wrappers
  import opened Text
  import opened Format
  import opened Prompts

  /** The parse mode of a send attempt; `Plain` is a send without one. */
  datatype Mode = Html | MarkdownV2 | Plain

  /** One outward call: a `send_message` attempt, or a `generate_content` request. */
  datatype Action = Send(text: string, mode: Mode) | Generate(prompt: string)

  /** What Telegram does with one send attempt. */
  datatype Delivery = Delivered | Refused(detail: string)

  /** What the model does with a request. */
  datatype Generation = Generated(text: string) | GenerationFailed(detail: string)

  /** An exception that leaves a handler. */
  datatype Raised = FormatRaised(error: FormatError) | SendRaised(detail: string)

  /** The calls a handler made, in order, and what escaped it. */
  datatype Run = Run(actions: seq<Action>, escaped: Option<Raised>)

  datatype Message = Message(text: Option<string>, firstName: string)

  datatype Update = Update(message: Option<Message>)

  datatype Env = Env(configured: bool, generate: string -> Generation, deliver: nat -> Delivery)

  /** The attempts of one `send_message` call, the next free attempt number, and its exception. */
  datatype Sent = Sent(actions: seq<Action>, used: nat, failure: Option<string>)

  /** Some attempt numbered from `from` up to `to` goes through. */
  predicate AnyDelivered(deliver: nat -> Delivery, from: nat, to: nat) {
    exists k: nat :: from <= k < to && deliver(k).Delivered?
  }

  /**
   `send_message`: one attempt in the requested mode; when that attempt raises,
   exactly one more without a parse mode, whose exception is not caught.
   */
  function SendMessage(text: string, mode: Mode, deliver: nat -> Delivery, from: nat): (s: Sent)
    ensures s.used == from + |s.actions|
    ensures 1 <= |s.actions| <= 2 && s.actions[0] == Send(text, mode)
    ensures |s.actions| == 2 <==> deliver(from).Refused?
    ensures |s.actions| == 2 ==> s.actions[1] == Send(text, Plain)
    ensures s.failure.None? <==> AnyDelivered(deliver, from, s.used)
    ensures s.failure.Some? ==> deliver(s.used - 1) == Refused(s.failure.value)
  {
    if deliver(from).Delivered? then Sent([Send(text, mode)], from + 1, None)
    else
      var second := deliver(from + 1);
      Sent([Send(text, mode), Send(text, Plain)], from + 2,
        if second.Delivered? then None else Some(second.detail))
  }

  /** The run of a handler whose last call was the send `s`. */
  function Finish(prefix: seq<Action>, s: Sent): Run {
    Run(prefix + s.actions, if s.failure.Some? then Some(SendRaised(s.failure.value)) else None)
  }

  const ConfigErrorText := "\U{274C} Error de configuraci\U{F3}n: La clave Gemini API no es v\U{E1}lida o falta. No se puede procesar la solicitud."

  const UsageText := "\U{26A0}\U{FE0F} **Formato incorrecto.**\n\nUsa: `/apuesta [TIPO] [FECHA] [CUOTA]`\nEj: `/apuesta SIMPLE 20/10/2025 2.00`"

  const WelcomeHead := "\U{A1}Hola, **"

  /** The rest of the welcome text, line by line. */
  const WelcomeLine0 := "**! Soy THE LION BETS \U{1F981}, tu analista experto en IA.\n\n"
  const WelcomeLine1 := "**Mi disciplina es estricta (\U{A1}solo Apuestas VERDES!).**\n\n"
  const WelcomeLine2 := "Para solicitar un an\U{E1}lisis, usa el siguiente formato de comando:\n\n"
  const WelcomeLine3 := "\U{1F449} `/apuesta [TIPO] [FECHA] [CUOTA]`\n\n"
  const WelcomeLine4 := "**Ejemplos:**\n"
  const WelcomeLine5 := "1.  **Apuestas Simples (Cuota 2.00):**\n"
  const WelcomeLine6 := "    `/apuesta SIMPLE 20/10/2025 2.00`\n\n"
  const WelcomeLine7 := "2.  **Apuestas Combinadas (Cuota 1.30 - Recomendado):**\n"
  const WelcomeLine8 := "    `/apuesta COMBI 21/10/2025 1.30`\n\n"
  const WelcomeLine9 := "Procesar\U{E9} tu solicitud con la m\U{E1}xima rigurosidad estad\U{ED}stica y de valor."
  const WelcomeBody :=
    WelcomeLine0 + WelcomeLine1 + WelcomeLine2 + WelcomeLine3 + WelcomeLine4
      + WelcomeLine5 + WelcomeLine6 + WelcomeLine7 + WelcomeLine8 + WelcomeLine9

  function WelcomeText(firstName: string): string {
    WelcomeHead + firstName + WelcomeBody
  }

  function UnknownTypeText(kind: string): string {
    "Tipo de apuesta no reconocido: '" + kind + "'. Usa SIMPLE o COMBI."
  }

  function ProcessingText(kind: string, date: string, odds: string): string {
    "\U{23F3} **Analizando Apuesta " + kind + "** para el " + date + " (Cuota \U{2248} " + odds
      + ").\nEste an\U{E1}lisis riguroso puede tardar hasta 45 segundos..."
  }

  function ErrorText(detail: string): string {
    "\U{274C} **Error en la conexi\U{F3}n o procesamiento de la IA.**\n\nDetalles del error: " + detail
  }

  /** Where `handle_update` sends an update. */
  datatype Route = Ignore | Start(firstName: string) | Apuesta(args: seq<string>)

  /** The update is a message whose text is present and not empty. */
  predicate HasText(u: Update) {
    u.message.Some? && u.message.value.text.Some? && u.message.value.text.value != []
  }

  /**
   `handle_update`'s dispatch: a message with non-empty text is stripped and
   matched case-insensitively, `/start` first; `/apuesta` passes on the words
   after the first.
   */
  function RouteOf(u: Update): (r: Route)
    ensures r.Start? <==> HasText(u) && StartsWith(Lower(Strip(u.message.value.text.value)), "/start")
    ensures r.Apuesta? <==>
      && HasText(u)
      && !StartsWith(Lower(Strip(u.message.value.text.value)), "/start")
      && StartsWith(Lower(Strip(u.message.value.text.value)), "/apuesta")
    ensures r.Start? ==> r.firstName == u.message.value.firstName
    ensures r.Apuesta? ==> forall k :: 0 <= k < |r.args| ==> IsWord(r.args[k])
  {
    if !HasText(u) then Ignore
    else
      var t := Strip(u.message.value.text.value);
      if StartsWith(Lower(t), "/start") then Start(u.message.value.firstName)
      else if StartsWith(Lower(t), "/apuesta") then Apuesta(AfterCommand(Split(t)))
      else Ignore
  }

  /** Python's `parts[1:]`. */
  function AfterCommand(parts: seq<string>): (args: seq<string>)
    ensures parts != [] ==> parts == [parts[0]] + args
    ensures parts == [] ==> args == []
  {
    if parts == [] then [] else parts[1..]
  }

  /** `handle_start`: the welcome text, with HTML. */
  function HandleStart(firstName: string, env: Env): Run {
    Finish([], SendMessage(WelcomeText(firstName), Html, env.deliver, 0))
  }

  /** The prompt template a bet type selects. */
  function SelectPrompt(p: Prompts, kind: string): (r: Option<string>)
    ensures r.Some? <==> kind == "SIMPLE" || kind == "COMBI"
    ensures kind == "SIMPLE" ==> r == Some(p.simple)
    ensures kind == "COMBI" ==> r == Some(p.combi)
  {
    if kind == "SIMPLE" then Some(p.simple)
    else if kind == "COMBI" then Some(p.combi)
    else None
  }

  /** The error report after a failed request or reply, itself not guarded. */
  function Report(prefix: seq<Action>, detail: string, env: Env, from: nat): Run {
    Finish(prefix, SendMessage(ErrorText(detail), Html, env.deliver, from))
  }

  /**
   The analysis once the prompt is built: the processing notice, outside the
   guard, then the guarded part.
   */
  function Analyse(kind: string, date: string, odds: string, prompt: string, env: Env): Run {
    var notice := SendMessage(ProcessingText(kind, date, odds), Html, env.deliver, 0);
    if notice.failure.Some? then Finish([], notice)
    else Guarded(notice.actions + [Generate(prompt)], prompt, env, notice.used)
  }

  /**
   The guarded part, after the request for `prompt`: the answer in MarkdownV2,
   or the error report when the request or the answer raises.
   */
  function Guarded(asked: seq<Action>, prompt: string, env: Env, from: nat): Run {
    var answer := env.generate(prompt);
    if answer.GenerationFailed? then Report(asked, answer.detail, env, from)
    else
      var reply := SendMessage(answer.text, MarkdownV2, env.deliver, from);
      if reply.failure.Some? then Report(asked + reply.actions, reply.failure.value, env, reply.used)
      else Run(asked + reply.actions, None)
  }

  /** `handle_apuesta`: the client check, the arity check, the bet type, then the analysis. */
  function HandleApuesta(p: Prompts, args: seq<string>, env: Env): Run {
    if !env.configured then Finish([], SendMessage(ConfigErrorText, Html, env.deliver, 0))
    else if |args| != 3 then Finish([], SendMessage(UsageText, Html, env.deliver, 0))
    else
      var kind := Upper(args[0]);
      var base := SelectPrompt(p, kind);
      if base.None? then Finish([], SendMessage(UnknownTypeText(kind), Html, env.deliver, 0))
      else
        var formatted := FormatString(base.value, Keywords(args[1], args[2]));
        if formatted.Err? then Run([], Some(FormatRaised(formatted.error)))
        else Analyse(kind, args[1], args[2], formatted.value, env)
  }

  /** `handle_update` over a given pair of prompt templates. */
  function HandleUpdateWith(p: Prompts, u: Update, env: Env): Run {
    match RouteOf(u)
    case Ignore => Run([], None)
    case Start(firstName) => HandleStart(firstName, env)
    case Apuesta(args) => HandleApuesta(p, args, env)
  }

  /** `handle_update` with the prompts as written. */
  function HandleUpdate(u: Update, env: Env): Run {
    HandleUpdateWith(SourcePrompts(), u, env)
  }
}

=== FILE: format.dfy ===
/**
 Python's `str.format` with keyword arguments only, as used for the prompt
 templates. A format string is scanned left to right into literal text and
 replacement fields; `{{` and `}}` stand for single braces, and a field is the
 text between a `{` and the next `}`. Each field is then looked up among the
 keyword arguments. As in CPython, scanning and lookup are interleaved, so a
 failed lookup of an earlier field is reported before a brace error further on.
 */
module Format {
  import opened Wrappers
  import opened Text

  /** One segment of a format string: literal text, or a replacement field `{name}`. */
  datatype Piece = Lit(text: string) | Field(name: string)

  type Template = seq<Piece>

  datatype FormatError =
    | KeyError(key: string)       // a named field with no keyword argument of that name
    | IndexError                  // `{}` or `{0}`: no positional argument was passed
    | ValueError                  // an unmatched `{` or `}`
    | Unsupported(field: string)  // a conversion, format spec, attribute or index access

  /** The pieces scanned before the first brace error, and that error if there is one. */
  datatype Scanned = Scanned(pieces: Template, stop: Option<FormatError>)

  predicate IsBrace(c: char) {
    c == '{' || c == '}'
  }

  predicate NoBrace(s: string) {
    forall i :: 0 <= i < |s| ==> !IsBrace(s[i])
  }

  /**
   The shape `Scan` produces: literal pieces are non-empty and never adjacent
   (adjacent text is one literal), and field names hold no braces.
   */
  predicate Normal(t: Template) {
    if t == [] then true
    else
      && NormalPiece(t[0])
      && (t[0].Lit? && |t| > 1 ==> t[1].Field?)
      && Normal(t[1..])
  }

  predicate NormalPiece(p: Piece) {
    if p.Lit? then p.text != [] else NoBrace(p.name)
  }

  /** Adding a piece in front keeps a template normal when it is not a second literal. */
  lemma NormalCons(p: Piece, t: Template)
    requires Normal(t) && NormalPiece(p)
    requires p.Lit? && t != [] ==> t[0].Field?
    ensures Normal([p] + t)
  {
    assert ([p] + t)[1..] == t;
  }

  /** The position of the first brace in `s`, or `|s|` when there is none. */
  function BraceAt(s: string): (k: nat)
    ensures k <= |s|
    ensures NoBrace(s[..k])
    ensures k < |s| ==> IsBrace(s[k])
  {
    if s == [] || IsBrace(s[0]) then 0
    else
      var k := 1 + BraceAt(s[1..]);
      assert s[..k] == [s[0]] + s[1..][..k - 1];
      k
  }

  /** Adds one literal character in front of what was scanned after it. */
  function PushChar(c: char, sc: Scanned): Scanned {
    if |sc.pieces| > 0 && sc.pieces[0].Lit? then
      Scanned([Lit([c] + sc.pieces[0].text)] + sc.pieces[1..], sc.stop)
    else
      Scanned([Lit([c])] + sc.pieces, sc.stop)
  }

  lemma PushCharNormal(c: char, sc: Scanned)
    requires Normal(sc.pieces)
    ensures Normal(PushChar(c, sc).pieces)
  {
    if |sc.pieces| > 0 && sc.pieces[0].Lit? {
      var t := PushChar(c, sc).pieces;
      assert t[1..] == sc.pieces[1..];
    } else {
      assert ([Lit([c])] + sc.pieces)[1..] == sc.pieces;
    }
  }

  /** The first token of a non-empty format string, and how many characters it spans. */
  datatype Token = Char(c: char, width: nat) | FieldToken(name: string, width: nat) | BraceError

  /**
   Reads the first token of `s`: a doubled brace or any other non-brace character
   is one literal character; `{` up to the next `}` is a field. A `}` that is not
   doubled, a `{` with no closing `}`, and a `{` inside a field are brace errors.
   */
  function NextToken(s: string): (tok: Token)
    requires s != []
    ensures tok.Char? ==> 1 <= tok.width <= |s| && Escape([tok.c]) == s[..tok.width]
    ensures tok.FieldToken? ==> 2 <= tok.width <= |s| && s[..tok.width] == "{" + tok.name + "}" && NoBrace(tok.name)
  {
    if s[0] == '{' then
      if |s| > 1 && s[1] == '{' then Char('{', 2)
      else
        var body := s[1..];
        var k := BraceAt(body);
        if k == |body| || body[k] == '{' then BraceError
        else
          assert s[..k + 2] == "{" + body[..k] + "}";
          FieldToken(body[..k], k + 2)
    else if s[0] == '}' then
      if |s| > 1 && s[1] == '}' then Char('}', 2) else BraceError
    else
      Char(s[0], 1)
  }

  /**
   CPython's format-string parser: splits `s` into literal text and fields,
   stopping at the first brace error.
   */
  function Scan(s: string): (r: Scanned)
    ensures Normal(r.pieces)
    ensures r.stop.Some? ==> r.stop.value == ValueError
    decreases |s|
  {
    if s == [] then Scanned([], None)
    else
      match NextToken(s)
      case BraceError => Scanned([], Some(ValueError))
      case Char(c, n) =>
        var rest := Scan(s[n..]);
        PushCharNormal(c, rest);
        PushChar(c, rest)
      case FieldToken(name, n) =>
        var rest := Scan(s[n..]);
        var r := Scanned([Field(name)] + rest.pieces, rest.stop);
        assert r.pieces[1..] == rest.pieces;
        r
  }

  /** Literal text as it is written in a format string: every brace doubled. */
  function Escape(s: string): (r: string)
    ensures NoBrace(s) ==> r == s
    ensures |r| >= |s|
  {
    if s == [] then []
    else (if IsBrace(s[0]) then [s[0], s[0]] else [s[0]]) + Escape(s[1..])
  }

  /** Writes a template back as a format string. */
  function Render(t: Template): string {
    if t == [] then []
    else
      (match t[0]
       case Lit(x) => Escape(x)
       case Field(n) => "{" + n + "}")
      + Render(t[1..])
  }

  /** A field name `format` reads as a positional index: empty (automatic numbering) or all digits. */
  predicate Positional(name: string) {
    forall i :: 0 <= i < |name| ==> '0' <= name[i] <= '9'
  }

  /** A field with a conversion (`!`), a format spec (`:`), or attribute or index access. */
  predicate HasSuffix(name: string) {
    exists i :: 0 <= i < |name| && name[i] in "!:.["
  }

  /** A field that is just a keyword name. */
  predicate PlainName(name: string) {
    !HasSuffix(name) && !Positional(name)
  }

  /** What `format` substitutes for the field `{name}`, given only keyword arguments `kw`. */
  function Lookup(name: string, kw: map<string, string>): (r: Result<string, FormatError>)
    ensures r.Ok? <==> PlainName(name) && name in kw
    ensures r.Ok? ==> r.value == kw[name]
    ensures PlainName(name) && name !in kw ==> r == Err(KeyError(name))
  {
    if HasSuffix(name) then Err(Unsupported(name))
    else if Positional(name) then Err(IndexError)
    else if name in kw then Ok(kw[name])
    else Err(KeyError(name))
  }

  /** What one piece contributes to the output. */
  function PieceValue(p: Piece, kw: map<string, string>): Result<string, FormatError> {
    if p.Lit? then Ok(p.text) else Lookup(p.name, kw)
  }

  /** The piece is literal text, or a field `kw` supplies. */
  predicate Resolves(p: Piece, kw: map<string, string>) {
    PieceValue(p, kw).Ok?
  }

  /** Piece `i` is the first one that does not resolve. */
  predicate FirstUnresolved(t: Template, kw: map<string, string>, i: int) {
    && 0 <= i < |t|
    && !Resolves(t[i], kw)
    && forall j :: 0 <= j < i ==> Resolves(t[j], kw)
  }

  /** Fills every field of `t` from `kw`, left to right, stopping at the first field that does not resolve. */
  function Substitute(t: Template, kw: map<string, string>): Result<string, FormatError> {
    if t == [] then Ok([])
    else
      var head := PieceValue(t[0], kw);
      if head.Err? then Err(head.error)
      else
        var rest := Substitute(t[1..], kw);
        if rest.Err? then rest else Ok(head.value + rest.value)
  }

  /** Filling in succeeds exactly when every piece resolves. */
  lemma {:induction false} SubstituteOk(t: Template, kw: map<string, string>)
    ensures Substitute(t, kw).Ok? <==> forall i :: 0 <= i < |t| ==> Resolves(t[i], kw)
    decreases |t|
  {
    if t != [] {
      SubstituteOk(t[1..], kw);
      assert forall i :: 1 <= i < |t| ==> t[i] == t[1..][i - 1];
    }
  }

  /** A failed fill reports the lookup error of the first field that does not resolve. */
  lemma {:induction false} SubstituteFirstError(t: Template, kw: map<string, string>)
    requires Substitute(t, kw).Err?
    ensures exists i :: FirstUnresolved(t, kw, i) && Substitute(t, kw).error == PieceValue(t[i], kw).error
    decreases |t|
  {
    if PieceValue(t[0], kw).Err? {
      assert FirstUnresolved(t, kw, 0);
    } else {
      SubstituteFirstError(t[1..], kw);
      var i :| FirstUnresolved(t[1..], kw, i) && Substitute(t[1..], kw).error == PieceValue(t[1..][i], kw).error;
      assert forall j :: 1 <= j <= i + 1 ==> t[j] == t[1..][j - 1];
      assert FirstUnresolved(t, kw, i + 1);
    }
  }

  /** Python's `s.format(**kw)`. */
  function FormatString(s: string, kw: map<string, string>): (r: Result<string, FormatError>)
    ensures Substitute(Scan(s).pieces, kw).Err? ==> r == Substitute(Scan(s).pieces, kw)
    ensures Scan(s).stop.Some? && Substitute(Scan(s).pieces, kw).Ok? ==> r == Err(ValueError)
    ensures Scan(s).stop.None? ==> r == Substitute(Scan(s).pieces, kw)
  {
    var sc := Scan(s);
    match Substitute(sc.pieces, kw)
    case Err(e) => Err(e)
    case Ok(out) => if sc.stop.Some? then Err(sc.stop.value) else Ok(out)
  }

  lemma {:induction false} EscapeAppend(a: string, b: string)
    ensures Escape(a + b) == Escape(a) + Escape(b)
    decreases |a|
  {
    if a == [] {
      assert a + b == b;
    } else {
      assert (a + b)[1..] == a[1..] + b;
      EscapeAppend(a[1..], b);
    }
  }

  lemma RenderPush(c: char, sc: Scanned)
    ensures Render(PushChar(c, sc).pieces) == Escape([c]) + Render(sc.pieces)
  {
    var t := PushChar(c, sc).pieces;
    if |sc.pieces| > 0 && sc.pieces[0].Lit? {
      var x := sc.pieces[0].text;
      assert t[1..] == sc.pieces[1..];
      EscapeAppend([c], x);
    } else {
      assert t[1..] == sc.pieces;
    }
  }

  /** A format string that scans without a brace error is rendered back exactly. */
  lemma {:induction false} RenderScan(s: string)
    requires Scan(s).stop.None?
    ensures Render(Scan(s).pieces) == s
    decreases |s|
  {
    if s != [] {
      var tok := NextToken(s);
      assert s == s[..tok.width] + s[tok.width..];
      RenderScan(s[tok.width..]);
      match tok
      case Char(c, n) =>
        RenderPush(c, Scan(s[n..]));
      case FieldToken(name, n) =>
        var t := Scan(s).pieces;
        assert t[1..] == Scan(s[n..]).pieces;
    }
  }

  /**
   A scan that stops at a brace error keeps exactly the text before that error:
   its pieces render to the prefix that ends where the first brace error begins.
   */
  lemma {:induction false} ScanStopsAt(s: string) returns (k: nat)
    requires Scan(s).stop.Some?
    ensures k < |s| && Render(Scan(s).pieces) == s[..k] && NextToken(s[k..]).BraceError?
    decreases |s|
  {
    var tok := NextToken(s);
    if tok.BraceError? {
      k := 0;
      assert s[k..] == s;
    } else {
      var n := ScanStep(s);
      var j := ScanStopsAt(s[n..]);
      k := n + j;
      SliceAfter(s, n, j);
    }
  }

  /** The first token, when it is not a brace error, renders in front of the scan of the rest. */
  lemma ScanStep(s: string) returns (n: nat)
    requires s != [] && !NextToken(s).BraceError?
    ensures n == NextToken(s).width && 0 < n <= |s|
    ensures Scan(s).stop == Scan(s[n..]).stop
    ensures Render(Scan(s).pieces) == s[..n] + Render(Scan(s[n..]).pieces)
  {
    match NextToken(s)
    case Char(c, w) =>
      n := w;
      RenderPush(c, Scan(s[n..]));
    case FieldToken(name, w) =>
      n := w;
      assert Scan(s).pieces[1..] == Scan(s[n..]).pieces;
  }

  lemma SliceAfter(s: string, n: nat, j: nat)
    requires n + j <= |s|
    ensures s[..n + j] == s[..n] + s[n..][..j]
    ensures s[n + j..] == s[n..][j..]
  {
  }

  /** One escaped character scans as that literal character. */
  lemma ScanCons(c: char, y: string)
    ensures Scan(Escape([c]) + y) == PushChar(c, Scan(y))
  {
    var s := Escape([c]) + y;
    if IsBrace(c) {
      assert s == [c, c] + y;
      assert NextToken(s) == Char(c, 2);
      assert s[2..] == y;
    } else {
      assert s == [c] + y;
      assert NextToken(s) == Char(c, 1);
      assert s[1..] == y;
    }
  }

  /** Escaped text in front of anything that does not begin with literal text scans as one literal. */
  lemma {:induction false} ScanEscaped(x: string, rest: string)
    requires x != []
    requires Scan(rest).pieces == [] || Scan(rest).pieces[0].Field?
    ensures Scan(Escape(x) + rest) == Scanned([Lit(x)] + Scan(rest).pieces, Scan(rest).stop)
    decreases |x|
  {
    var c, tail := x[0], x[1..];
    assert x == [c] + tail;
    EscapeAppend([c], tail);
    assert Escape(x) + rest == Escape([c]) + (Escape(tail) + rest);
    ScanCons(c, Escape(tail) + rest);
    var sc := Scan(rest);
    if tail == [] {
      assert Escape(tail) + rest == rest;
      assert [c] == x;
    } else {
      ScanEscaped(tail, rest);
      assert ([Lit(tail)] + sc.pieces)[1..] == sc.pieces;
    }
  }

  /** The first brace after a brace-free prefix is the one that ends it. */
  lemma BraceAfter(n: string, y: string)
    requires NoBrace(n)
    requires y != [] && IsBrace(y[0])
    ensures BraceAt(n + y) == |n|
  {
    var s := n + y;
    var k := BraceAt(s);
    assert IsBrace(s[|n|]);
    assert forall i :: 0 <= i < |n| ==> !IsBrace(s[i]);
    assert forall i :: 0 <= i < k ==> !IsBrace(s[i]);
  }

  /** A field in front of anything scans as that field. */
  lemma ScanField(n: string, rest: string)
    requires NoBrace(n)
    ensures Scan("{" + n + "}" + rest) == Scanned([Field(n)] + Scan(rest).pieces, Scan(rest).stop)
  {
    var s := "{" + n + "}" + rest;
    var body := n + ("}" + rest);
    assert s == "{" + body;
    assert s[1..] == body;
    assert s[1] != '{' by {
      if n == [] { assert s[1] == '}'; } else { assert s[1] == n[0]; }
    }
    BraceAfter(n, "}" + rest);
    assert body[|n|] == '}';
    assert body[..|n|] == n;
    assert NextToken(s) == FieldToken(n, |n| + 2);
    assert s[|n| + 2..] == rest;
  }

  /** Rendering a template in normal form and scanning it again gives the template back. */
  lemma {:induction false} ScanRender(t: Template)
    requires Normal(t)
    ensures Scan(Render(t)) == Scanned(t, None)
    decreases |t|
  {
    if t != [] {
      ScanRender(t[1..]);
      var rest := Render(t[1..]);
      assert t == [t[0]] + t[1..];
      match t[0]
      case Lit(x) =>
        ScanEscaped(x, rest);
      case Field(n) =>
        ScanField(n, rest);
    }
  }

  /** Formatting a rendered template is filling in its fields. */
  lemma FormatRendered(t: Template, kw: map<string, string>)
    requires Normal(t)
    ensures FormatString(Render(t), kw) == Substitute(t, kw)
  {
    ScanRender(t);
  }

  /** `format` undoes brace escaping: escaped text comes out unchanged, whatever the arguments. */
  lemma FormatEscaped(x: string, kw: map<string, string>)
    ensures FormatString(Escape(x), kw) == Ok(x)
  {
    if x == [] {
    } else {
      var t := [Lit(x)];
      assert Normal(t) by { assert t[1..] == []; }
      assert Render(t) == Escape(x) by { assert Escape(x) + [] == Escape(x); }
      FormatRendered(t, kw);
      assert t[1..] == [];
      assert x + [] == x;
    }
  }

  /** Filling in a concatenation of templates fills in each part, the left one first. */
  lemma SubstituteAppend(a: Template, b: Template, kw: map<string, string>)
    ensures Substitute(a, kw).Err? ==> Substitute(a + b, kw) == Substitute(a, kw)
    ensures Substitute(a, kw).Ok? && Substitute(b, kw).Err? ==> Substitute(a + b, kw) == Substitute(b, kw)
    ensures Substitute(a, kw).Ok? && Substitute(b, kw).Ok? ==>
      Substitute(a + b, kw) == Ok(Substitute(a, kw).value + Substitute(b, kw).value)
  {
    if Substitute(a, kw).Err? {
      SubstituteAppendLeftFails(a, b, kw);
    } else {
      SubstituteAppendLeftOk(a, b, kw);
    }
  }

  lemma {:induction false} SubstituteAppendLeftFails(a: Template, b: Template, kw: map<string, string>)
    requires Substitute(a, kw).Err?
    ensures Substitute(a + b, kw) == Substitute(a, kw)
    decreases |a|
  {
    var p, rest := a[0], a[1..];
    assert a == [p] + rest;
    assert a + b == [p] + (rest + b);
    SubstituteCons(p, rest, kw);
    SubstituteCons(p, rest + b, kw);
    if PieceValue(p, kw).Ok? {
      SubstituteAppendLeftFails(rest, b, kw);
    }
  }

  lemma {:induction false} SubstituteAppendLeftOk(a: Template, b: Template, kw: map<string, string>)
    requires Substitute(a, kw).Ok?
    ensures Substitute(b, kw).Err? ==> Substitute(a + b, kw) == Substitute(b, kw)
    ensures Substitute(b, kw).Ok? ==> Substitute(a + b, kw) == Ok(Substitute(a, kw).value + Substitute(b, kw).value)
  {
    if Substitute(b, kw).Ok? {
      SubstituteAppendBothOk(a, b, kw);
    } else {
      SubstituteAppendRightFails(a, b, kw);
    }
  }

  lemma {:induction false} SubstituteAppendBothOk(a: Template, b: Template, kw: map<string, string>)
    requires Substitute(a, kw).Ok? && Substitute(b, kw).Ok?
    ensures Substitute(a + b, kw) == Ok(Substitute(a, kw).value + Substitute(b, kw).value)
    decreases |a|
  {
    if a == [] {
      assert a + b == b;
      assert [] + Substitute(b, kw).value == Substitute(b, kw).value;
    } else {
      assert (a + b)[0] == a[0];
      assert (a + b)[1..] == a[1..] + b;
      SubstituteAppendBothOk(a[1..], b, kw);
      var h, x, y := PieceValue(a[0], kw).value, Substitute(a[1..], kw).value, Substitute(b, kw).value;
      assert h + (x + y) == (h + x) + y;
    }
  }

  lemma {:induction false} SubstituteAppendRightFails(a: Template, b: Template, kw: map<string, string>)
    requires Substitute(a, kw).Ok? && Substitute(b, kw).Err?
    ensures Substitute(a + b, kw) == Substitute(b, kw)
    decreases |a|
  {
    if a == [] {
      assert a + b == b;
    } else {
      assert (a + b)[0] == a[0];
      assert (a + b)[1..] == a[1..] + b;
      SubstituteAppendRightFails(a[1..], b, kw);
    }
  }

  /** Filling in a template piece by piece. */
  lemma SubstituteCons(p: Piece, t: Template, kw: map<string, string>)
    ensures PieceValue(p, kw).Err? ==> Substitute([p] + t, kw) == Err(PieceValue(p, kw).error)
    ensures PieceValue(p, kw).Ok? && Substitute(t, kw).Err? ==> Substitute([p] + t, kw) == Substitute(t, kw)
    ensures PieceValue(p, kw).Ok? && Substitute(t, kw).Ok? ==>
      Substitute([p] + t, kw) == Ok(PieceValue(p, kw).value + Substitute(t, kw).value)
  {
    assert ([p] + t)[1..] == t;
  }

  /** A literal on its own comes out unchanged. */
  lemma SubstituteLit(x: string, kw: map<string, string>)
    ensures Substitute([Lit(x)], kw) == Ok(x)
  {
    assert [Lit(x)] == [Lit(x)] + [];
    SubstituteCons(Lit(x), [], kw);
    assert x + [] == x;
  }
}

=== FILE: prompts.dfy ===
/**
 The two analysis prompts, PROMPT_SIMPLE and PROMPT_COMBI, by their structure of
 literal text and replacement fields (the prose is abbreviated), and what
 `format(FECHA_OBJETIVO=date, CUOTA_OBJETIVO=odds)` makes of each.
 */
module Prompts {
  import opened Wrappers
  import opened Format

  const DateKey := "FECHA_OBJETIVO"
  const OddsKey := "CUOTA_OBJETIVO"

  /** The keyword arguments the handler passes to `format`. */
  function Keywords(date: string, odds: string): map<string, string> {
    map[DateKey := date, OddsKey := odds]
  }

  /** The field names of a template, in order. */
  function FieldNames(t: Template): (names: seq<string>)
    ensures |names| <= |t|
  {
    if t == [] then []
    else (if t[0].Field? then [t[0].name] else []) + FieldNames(t[1..])
  }

  const SimpleHead := "\U{2026}**"
  const SimpleTail := "**\U{2026}"

  /** PROMPT_SIMPLE: one field, the date. */
  const SimpleTemplate: Template := Shape3(SimpleHead, DateKey, SimpleTail)

  const CombiHead := "\U{2026}**"
  const CombiGoal := "**\U{2026} "
  const CombiSummary := "**\U{2026}**"
  const CombiDateLine := "**\U{2026} "
  const CombiTail := "\U{2026}"

  /** The two fields whose names were written with a backslash before the underscore. */
  const OddsKeyEscaped := "CUOTA\\_OBJETIVO"
  const DateKeyEscaped := "FECHA\\_OBJETIVO"

  /** PROMPT_COMBI as written: date and odds, then the odds and date again under backslashed names. */
  const CombiTemplate: Template := CombiShape(OddsKeyEscaped, DateKeyEscaped)

  /** PROMPT_COMBI as evidently intended: the last two fields use the keyword names. */
  const CombiTemplateIntended: Template := CombiShape(OddsKey, DateKey)

  /** The templates a handler selects from, as format strings. */
  datatype Prompts = Prompts(simple: string, combi: string)

  function PromptSimple(): string { Render(SimpleTemplate) }
  function PromptCombi(): string { Render(CombiTemplate) }
  function PromptCombiIntended(): string { Render(CombiTemplateIntended) }

  /** The prompts of the program as written. */
  function SourcePrompts(): Prompts { Prompts(PromptSimple(), PromptCombi()) }

  /** The prompts with PROMPT_COMBI corrected. */
  function IntendedPrompts(): Prompts { Prompts(PromptSimple(), PromptCombiIntended()) }

  /** A field resolves against the handler's keywords exactly when it is one of the two names. */
  lemma ResolvesKeyword(p: Piece, date: string, odds: string)
    requires p.Field?
    ensures Resolves(p, Keywords(date, odds)) <==> p.name == DateKey || p.name == OddsKey
  {
    var n := p.name;
    if n == DateKey || n == OddsKey {
      assert !HasSuffix(n);
      assert !Positional(n) by { assert !('0' <= n[0] <= '9'); }
    }
  }

  lemma {:induction false} FieldNamesIn(t: Template, i: int)
    requires 0 <= i < |t| && t[i].Field?
    ensures t[i].name in FieldNames(t)
    decreases |t|
  {
    if i > 0 {
      FieldNamesIn(t[1..], i - 1);
    }
  }

  lemma {:induction false} FieldNamesFrom(t: Template, n: string)
    requires n in FieldNames(t)
    ensures exists i :: 0 <= i < |t| && t[i].Field? && t[i].name == n
    decreases |t|
  {
    if !(t[0].Field? && t[0].name == n) {
      FieldNamesFrom(t[1..], n);
      var i :| 0 <= i < |t[1..]| && t[1..][i].Field? && t[1..][i].name == n;
      assert t[i + 1] == t[1..][i];
    }
  }

  /**
   Formatting a template with the handler's keywords succeeds exactly when every
   field is named FECHA_OBJETIVO or CUOTA_OBJETIVO.
   */
  lemma FormatSucceedsIff(t: Template, date: string, odds: string)
    requires Normal(t)
    ensures FormatString(Render(t), Keywords(date, odds)).Ok? <==>
      forall n :: n in FieldNames(t) ==> n == DateKey || n == OddsKey
  {
    var kw := Keywords(date, odds);
    FormatRendered(t, kw);
    SubstituteOk(t, kw);
    forall i | 0 <= i < |t| && t[i].Field?
      ensures Resolves(t[i], kw) <==> t[i].name == DateKey || t[i].name == OddsKey
    {
      ResolvesKeyword(t[i], date, odds);
    }
    forall n | n in FieldNames(t)
      ensures exists i :: 0 <= i < |t| && t[i].Field? && t[i].name == n
    {
      FieldNamesFrom(t, n);
    }
    forall i | 0 <= i < |t| && t[i].Field?
      ensures t[i].name in FieldNames(t)
    {
      FieldNamesIn(t, i);
    }
  }

  /** Literal text and a field in front of the template `t`. */
  function Pair(a: string, x: string, t: Template): Template {
    [Lit(a)] + ([Field(x)] + t)
  }

  /** Three pieces: literal text around one field. */
  function Shape3(a: string, x: string, b: string): Template {
    Pair(a, x, [Lit(b)])
  }

  /** Nine pieces: literal text alternating with four fields. */
  function Shape9(a: string, x: string, b: string, y: string, c: string, z: string, d: string, w: string, e: string): Template {
    Pair(a, x, Pair(b, y, Pair(c, z, Shape3(d, w, e))))
  }

  lemma PairNormal(a: string, x: string, t: Template)
    requires Normal(t) && t != [] && t[0].Lit?
    requires a != [] && NoBrace(x)
    ensures Normal(Pair(a, x, t)) && Pair(a, x, t)[0].Lit?
  {
    NormalCons(Field(x), t);
    NormalCons(Lit(a), [Field(x)] + t);
  }

  lemma Shape3Normal(a: string, x: string, b: string)
    requires a != [] && b != [] && NoBrace(x)
    ensures Normal(Shape3(a, x, b)) && Shape3(a, x, b)[0].Lit?
  {
    assert [Lit(b)] == [Lit(b)] + [];
    NormalCons(Lit(b), []);
    PairNormal(a, x, [Lit(b)]);
  }

  lemma Shape9Normal(a: string, x: string, b: string, y: string, c: string, z: string, d: string, w: string, e: string)
    requires a != [] && b != [] && c != [] && d != [] && e != []
    requires NoBrace(x) && NoBrace(y) && NoBrace(z) && NoBrace(w)
    ensures Normal(Shape9(a, x, b, y, c, z, d, w, e))
  {
    Shape3Normal(d, w, e);
    PairNormal(c, z, Shape3(d, w, e));
    PairNormal(b, y, Pair(c, z, Shape3(d, w, e)));
    PairNormal(a, x, Pair(b, y, Pair(c, z, Shape3(d, w, e))));
  }

  lemma PairSubstitute(a: string, x: string, t: Template, kw: map<string, string>, vx: string, vt: string)
    requires Lookup(x, kw) == Ok(vx) && Substitute(t, kw) == Ok(vt)
    ensures Substitute(Pair(a, x, t), kw) == Ok(a + vx + vt)
  {
    SubstituteCons(Field(x), t, kw);
    SubstituteCons(Lit(a), [Field(x)] + t, kw);
    assert a + (vx + vt) == a + vx + vt;
  }

  lemma PairSubstituteFails(a: string, x: string, t: Template, kw: map<string, string>)
    requires Lookup(x, kw).Ok? && Substitute(t, kw).Err?
    ensures Substitute(Pair(a, x, t), kw) == Substitute(t, kw)
  {
    SubstituteCons(Field(x), t, kw);
    SubstituteCons(Lit(a), [Field(x)] + t, kw);
  }

  lemma Shape3Substitute(a: string, x: string, b: string, kw: map<string, string>, vx: string)
    requires Lookup(x, kw) == Ok(vx)
    ensures Substitute(Shape3(a, x, b), kw) == Ok(a + vx + b)
  {
    SubstituteLit(b, kw);
    PairSubstitute(a, x, [Lit(b)], kw, vx, b);
  }

  lemma Shape9Substitute(a: string, x: string, b: string, y: string, c: string, z: string, d: string, w: string, e: string,
                         kw: map<string, string>, vx: string, vy: string, vz: string, vw: string)
    requires Lookup(x, kw) == Ok(vx) && Lookup(y, kw) == Ok(vy) && Lookup(z, kw) == Ok(vz) && Lookup(w, kw) == Ok(vw)
    ensures Substitute(Shape9(a, x, b, y, c, z, d, w, e), kw) == Ok(a + vx + b + vy + c + vz + d + vw + e)
  {
    var t3 := Shape3(d, w, e);
    var v3 := d + vw + e;
    Shape3Substitute(d, w, e, kw, vw);
    var t2 := Pair(c, z, t3);
    var v2 := c + vz + v3;
    PairSubstitute(c, z, t3, kw, vz, v3);
    var t1 := Pair(b, y, t2);
    var v1 := b + vy + v2;
    PairSubstitute(b, y, t2, kw, vy, v2);
    PairSubstitute(a, x, t1, kw, vx, v1);
    calc {
      a + vx + v1;
      a + vx + b + vy + v2;
      a + vx + b + vy + c + vz + v3;
      a + vx + b + vy + c + vz + d + vw + e;
    }
  }

  lemma Shape9SubstituteFails(a: string, x: string, b: string, y: string, c: string, z: string, d: string, w: string, e: string,
                              kw: map<string, string>)
    requires Lookup(x, kw).Ok? && Lookup(y, kw).Ok? && Lookup(z, kw).Err?
    ensures Substitute(Shape9(a, x, b, y, c, z, d, w, e), kw) == Err(Lookup(z, kw).error)
  {
    var t3 := Shape3(d, w, e);
    SubstituteCons(Field(z), t3, kw);
    SubstituteCons(Lit(c), [Field(z)] + t3, kw);
    PairSubstituteFails(b, y, Pair(c, z, t3), kw);
    PairSubstituteFails(a, x, Pair(b, y, Pair(c, z, t3)), kw);
  }

  lemma TemplatesNormal()
    ensures Normal(SimpleTemplate)
    ensures Normal(CombiTemplate)
    ensures Normal(CombiTemplateIntended)
  {
    Shape3Normal(SimpleHead, DateKey, SimpleTail);
    CombiNormal(OddsKeyEscaped, DateKeyEscaped);
    CombiNormal(OddsKey, DateKey);
  }

  /** PROMPT_COMBI with brace-free names in its last two fields alternates literal text and fields. */
  lemma CombiNormal(odds2: string, date2: string)
    requires NoBrace(odds2) && NoBrace(date2)
    ensures Normal(CombiShape(odds2, date2))
  {
    Shape9Normal(CombiHead, DateKey, CombiGoal, OddsKey, CombiSummary, odds2, CombiDateLine, date2, CombiTail);
  }

  /** PROMPT_COMBI with the given names for its third and fourth fields. */
  function CombiShape(odds2: string, date2: string): Template {
    Shape9(CombiHead, DateKey, CombiGoal, OddsKey, CombiSummary, odds2, CombiDateLine, date2, CombiTail)
  }

  lemma FieldNamesCons(p: Piece, t: Template)
    ensures FieldNames([p] + t) == (if p.Field? then [p.name] else []) + FieldNames(t)
  {
    assert ([p] + t)[1..] == t;
  }

  lemma PairFields(a: string, x: string, t: Template)
    ensures FieldNames(Pair(a, x, t)) == [x] + FieldNames(t)
  {
    FieldNamesCons(Field(x), t);
    FieldNamesCons(Lit(a), [Field(x)] + t);
  }

  lemma Shape3Fields(a: string, x: string, b: string)
    ensures FieldNames(Shape3(a, x, b)) == [x]
  {
    assert [Lit(b)] == [Lit(b)] + [];
    FieldNamesCons(Lit(b), []);
    PairFields(a, x, [Lit(b)]);
  }

  lemma Shape9Fields(a: string, x: string, b: string, y: string, c: string, z: string, d: string, w: string, e: string)
    ensures FieldNames(Shape9(a, x, b, y, c, z, d, w, e)) == [x, y, z, w]
  {
    var t3 := Shape3(d, w, e);
    Shape3Fields(d, w, e);
    PairFields(c, z, t3);
    PairFields(b, y, Pair(c, z, t3));
    PairFields(a, x, Pair(b, y, Pair(c, z, t3)));
  }

  /** PROMPT_SIMPLE has the date as its only field. */
  lemma SimpleFields()
    ensures FieldNames(SimpleTemplate) == [DateKey]
  {
    Shape3Fields(SimpleHead, DateKey, SimpleTail);
  }

  /** PROMPT_COMBI as written has four fields, two of them under backslashed names. */
  lemma CombiFields()
    ensures FieldNames(CombiTemplate) == [DateKey, OddsKey, OddsKeyEscaped, DateKeyEscaped]
  {
    Shape9Fields(CombiHead, DateKey, CombiGoal, OddsKey, CombiSummary, OddsKeyEscaped, CombiDateLine, DateKeyEscaped, CombiTail);
  }

  lemma KeywordsResolve(date: string, odds: string)
    ensures Lookup(DateKey, Keywords(date, odds)) == Ok(date)
    ensures Lookup(OddsKey, Keywords(date, odds)) == Ok(odds)
    ensures Lookup(OddsKeyEscaped, Keywords(date, odds)) == Err(KeyError(OddsKeyEscaped))
  {
    ResolvesKeyword(Field(DateKey), date, odds);
    ResolvesKeyword(Field(OddsKey), date, odds);
    assert !HasSuffix(OddsKeyEscaped);
    assert !Positional(OddsKeyEscaped) by { assert !('0' <= OddsKeyEscaped[0] <= '9'); }
  }

  /** PROMPT_SIMPLE formats for every date and odds: the date goes in verbatim, the odds are unused. */
  lemma SimpleFormats(date: string, odds: string)
    ensures FormatString(PromptSimple(), Keywords(date, odds)) == Ok(SimpleHead + date + SimpleTail)
  {
    var kw := Keywords(date, odds);
    TemplatesNormal();
    FormatRendered(SimpleTemplate, kw);
    KeywordsResolve(date, odds);
    Shape3Substitute(SimpleHead, DateKey, SimpleTail, kw, date);
  }

  /**
   PROMPT_COMBI as written never formats: whatever the date and odds, `format`
   raises KeyError for the backslashed odds field, the first unknown name.
   */
  lemma CombiFormatFails(date: string, odds: string)
    ensures FormatString(PromptCombi(), Keywords(date, odds)) == Err(KeyError(OddsKeyEscaped))
  {
    var kw := Keywords(date, odds);
    TemplatesNormal();
    FormatRendered(CombiTemplate, kw);
    KeywordsResolve(date, odds);
    Shape9SubstituteFails(CombiHead, DateKey, CombiGoal, OddsKey, CombiSummary, OddsKeyEscaped, CombiDateLine, DateKeyEscaped, CombiTail, kw);
  }

  /** PROMPT_COMBI as intended formats, with the date and the odds each inserted twice, verbatim. */
  lemma CombiIntendedFormats(date: string, odds: string)
    ensures FormatString(PromptCombiIntended(), Keywords(date, odds)) ==
      Ok(CombiHead + date + CombiGoal + odds + CombiSummary + odds + CombiDateLine + date + CombiTail)
  {
    var kw := Keywords(date, odds);
    TemplatesNormal();
    FormatRendered(CombiTemplateIntended, kw);
    KeywordsResolve(date, odds);
    Shape9Substitute(CombiHead, DateKey, CombiGoal, OddsKey, CombiSummary, OddsKey, CombiDateLine, DateKey, CombiTail,
      kw, date, odds, odds, date);
  }
}

=== FILE: properties.dfy ===
/**
 What the command front end promises: which updates it answers, what each
 handler's error paths send, the shape of an analysis, the plain-text
 fallback discipline, and the effect of the two backslashed fields in
 PROMPT_COMBI.
 */
module BotProperties {
  import opened Wrappers
  import opened Text
  import opened Format
  import opened Prompts
  import opened Bot

  /** The prompts sent to the model, in order. */
  function Requests(a: seq<Action>): (r: seq<string>)
    ensures |r| <= |a|
  {
    if a == [] then []
    else (if a[0].Generate? then [a[0].prompt] else []) + Requests(a[1..])
  }

  lemma {:induction false} RequestsAppend(a: seq<Action>, b: seq<Action>)
    ensures Requests(a + b) == Requests(a) + Requests(b)
    decreases |a|
  {
    if a == [] {
      assert a + b == b;
    } else {
      var head := if a[0].Generate? then [a[0].prompt] else [];
      assert (a + b)[0] == a[0] && (a + b)[1..] == a[1..] + b;
      assert Requests(a + b) == head + Requests(a[1..] + b);
      RequestsAppend(a[1..], b);
      assert Requests(a) == head + Requests(a[1..]);
    }
  }

  /** Every call in `a` is a send attempt of `text`. */
  predicate OnlySends(a: seq<Action>, text: string) {
    forall i :: 0 <= i < |a| ==> a[i].Send? && a[i].text == text
  }

  /** A send attempt without a parse mode. */
  predicate IsResend(x: Action) {
    x.Send? && x.mode == Plain
  }

  /** Every send without a parse mode directly follows a send of the same text with one. */
  predicate Disciplined(a: seq<Action>) {
    forall i :: 0 < i < |a| && IsResend(a[i]) ==>
      a[i - 1].Send? && a[i - 1].mode != Plain && a[i - 1].text == a[i].text
  }

  /** `a` does not begin with a send without a parse mode. */
  predicate OpensWithMode(a: seq<Action>) {
    a != [] ==> !IsResend(a[0])
  }

  /** `a` begins with `x`. */
  predicate Begins(a: seq<Action>, x: Action) {
    a != [] && a[0] == x
  }

  /** The processing notice goes through, on the first attempt or on the plain resend. */
  predicate NoticeDelivered(deliver: nat -> Delivery) {
    deliver(0).Delivered? || deliver(1).Delivered?
  }

  lemma DisciplinedAppend(a: seq<Action>, b: seq<Action>)
    requires Disciplined(a) && Disciplined(b) && OpensWithMode(b)
    requires OpensWithMode(a)
    ensures Disciplined(a + b) && OpensWithMode(a + b)
  {
    var c := a + b;
    forall i | 0 < i < |c| && IsResend(c[i])
      ensures c[i - 1].Send? && c[i - 1].mode != Plain && c[i - 1].text == c[i].text
    {
      if i < |a| {
        assert c[i] == a[i] && c[i - 1] == a[i - 1];
      } else {
        assert c[i] == b[i - |a|];
        assert i - |a| > 0;
        assert c[i - 1] == b[i - |a| - 1];
      }
    }
    if a == [] {
      assert c == b;
    }
  }

  /** One `send_message` call is a disciplined run of attempts at its text that asks the model nothing. */
  lemma SendMessageShape(text: string, mode: Mode, deliver: nat -> Delivery, from: nat)
    requires mode != Plain
    ensures OnlySends(SendMessage(text, mode, deliver, from).actions, text)
    ensures Disciplined(SendMessage(text, mode, deliver, from).actions)
    ensures OpensWithMode(SendMessage(text, mode, deliver, from).actions)
    ensures Requests(SendMessage(text, mode, deliver, from).actions) == []
  {
    var a := SendMessage(text, mode, deliver, from).actions;
    if |a| == 2 {
      assert a == [a[0]] + [a[1]];
      assert Requests([a[1]]) == [] by { assert [a[1]][1..] == []; }
      RequestsAppend([a[0]], [a[1]]);
      assert Requests([a[0]]) == [] by { assert [a[0]][1..] == []; }
    } else {
      assert a[1..] == [];
    }
  }

  /**
   `send_message`'s outcome: the call raises exactly when both its attempts
   are refused, and then with the second refusal's detail.
   */
  lemma SendMessageFails(text: string, mode: Mode, deliver: nat -> Delivery, from: nat)
    ensures SendMessage(text, mode, deliver, from).failure.Some? <==>
      deliver(from).Refused? && deliver(from + 1).Refused?
    ensures SendMessage(text, mode, deliver, from).failure.Some? ==>
      SendMessage(text, mode, deliver, from).failure.value == deliver(from + 1).detail
  {
    var s := SendMessage(text, mode, deliver, from);
    if deliver(from).Delivered? {
      assert AnyDelivered(deliver, from, s.used) by { assert deliver(from).Delivered?; }
    } else if deliver(from + 1).Delivered? {
      assert AnyDelivered(deliver, from, s.used) by { assert deliver(from + 1).Delivered?; }
    } else {
      assert s.used == from + 2;
      assert !AnyDelivered(deliver, from, s.used);
    }
  }

  /** The last two calls of `a` are a send and its resend without a parse mode. */
  predicate EndsWithResend(a: seq<Action>) {
    |a| >= 2 && IsResend(a[|a| - 1]) && a[|a| - 2].Send? && a[|a| - 2].text == a[|a| - 1].text
  }

  /**
   `r` begins with the first call of `prefix`, asks the model exactly what
   `prefix` asks, has every plain resend directly after an attempt of the same
   text with a parse mode, and raises only a send error, with its last two
   calls such an attempt and its plain resend. Which attempts are refused is
   not part of this shape; `Bot.SendMessage` ties each resend to a refusal.
   Only the first call is fixed, because a send in `prefix` may be followed by
   its resend.
   */
  predicate Keeps(r: Run, prefix: seq<Action>) {
    && (prefix != [] ==> Begins(r.actions, prefix[0]))
    && Requests(r.actions) == Requests(prefix)
    && Disciplined(r.actions) && OpensWithMode(r.actions)
    && (r.escaped.Some? ==> r.escaped.value.SendRaised? && EndsWithResend(r.actions))
  }

  lemma KeepsTrans(r: Run, b: seq<Action>, a: seq<Action>)
    requires Keeps(r, b) && Keeps(Run(b, None), a)
    ensures Keeps(r, a)
  {
  }

  /** Sending `text` after `prefix`, when the send does not raise. */
  lemma SendShape(prefix: seq<Action>, text: string, mode: Mode, deliver: nat -> Delivery, from: nat)
    requires mode != Plain && Disciplined(prefix) && OpensWithMode(prefix)
    ensures Keeps(Run(prefix + SendMessage(text, mode, deliver, from).actions, None), prefix)
  {
    var s := SendMessage(text, mode, deliver, from);
    SendMessageShape(text, mode, deliver, from);
    DisciplinedAppend(prefix, s.actions);
    RequestsAppend(prefix, s.actions);
    assert Requests(prefix) + [] == Requests(prefix);
    assert prefix != [] ==> (prefix + s.actions)[0] == prefix[0];
  }

  /** A run that ends with one `send_message` call after the calls `prefix`. */
  lemma FinishShape(prefix: seq<Action>, text: string, mode: Mode, deliver: nat -> Delivery, from: nat)
    requires mode != Plain && Disciplined(prefix) && OpensWithMode(prefix)
    ensures Keeps(Finish(prefix, SendMessage(text, mode, deliver, from)), prefix)
  {
    SendShape(prefix, text, mode, deliver, from);
    SendMessageFails(text, mode, deliver, from);
  }

  /**
   The attempts of the first `send_message` call of a handler, with HTML: one,
   or a plain resend too when the first attempt is refused.
   */
  function Attempts(text: string, deliver: nat -> Delivery): (a: seq<Action>)
    ensures 1 <= |a| <= 2 && a[0] == Send(text, Html)
  {
    if deliver(0).Delivered? then [Send(text, Html)] else [Send(text, Html), Send(text, Plain)]
  }

  /** The run of a handler that only answers with `text`. */
  lemma ReplyOnly(text: string, env: Env)
    ensures Finish([], SendMessage(text, Html, env.deliver, 0)).actions == Attempts(text, env.deliver)
    ensures OnlySends(Finish([], SendMessage(text, Html, env.deliver, 0)).actions, text)
    ensures Begins(Finish([], SendMessage(text, Html, env.deliver, 0)).actions, Send(text, Html))
    ensures Requests(Finish([], SendMessage(text, Html, env.deliver, 0)).actions) == []
    ensures Finish([], SendMessage(text, Html, env.deliver, 0)).escaped.Some? <==>
      env.deliver(0).Refused? && env.deliver(1).Refused?
    ensures Finish([], SendMessage(text, Html, env.deliver, 0)).escaped.Some? ==>
      Finish([], SendMessage(text, Html, env.deliver, 0)).escaped == Some(SendRaised(env.deliver(1).detail))
  {
    var s := SendMessage(text, Html, env.deliver, 0);
    SendMessageShape(text, Html, env.deliver, 0);
    SendMessageFails(text, Html, env.deliver, 0);
    assert [] + s.actions == s.actions;
  }

  /**
   `handle_start` greets the user by first name, with HTML, whatever the
   configuration and the prompts, and asks the model nothing.
   */
  lemma StartWelcomes(p: Prompts, u: Update, env: Env)
    requires RouteOf(u).Start?
    ensures HandleUpdateWith(p, u, env).actions == Attempts(WelcomeText(RouteOf(u).firstName), env.deliver)
    ensures Begins(HandleUpdateWith(p, u, env).actions, Send(WelcomeText(RouteOf(u).firstName), Html))
    ensures OnlySends(HandleUpdateWith(p, u, env).actions, WelcomeText(RouteOf(u).firstName))
    ensures Requests(HandleUpdateWith(p, u, env).actions) == []
    ensures Contains(WelcomeText(RouteOf(u).firstName), u.message.value.firstName)
  {
    var name := RouteOf(u).firstName;
    ReplyOnly(WelcomeText(name), env);
    WelcomeNames(name);
  }

  lemma WelcomeNames(name: string)
    ensures Contains(WelcomeText(name), name)
  {
    assert OccursAt(WelcomeText(name), name, |WelcomeHead|) by {
      assert WelcomeText(name) == WelcomeHead + name + WelcomeBody;
    }
  }

  /** The answer to `/start` depends neither on the model client nor on the prompts. */
  lemma StartIgnoresConfiguration(p: Prompts, q: Prompts, u: Update, env: Env, configured: bool)
    requires RouteOf(u).Start?
    ensures HandleUpdateWith(q, u, env.(configured := configured)) == HandleUpdateWith(p, u, env)
  {
  }

  /** Without a model client, `/apuesta` answers with the configuration error alone, for any arguments. */
  lemma UnconfiguredRefuses(p: Prompts, args: seq<string>, env: Env)
    requires !env.configured
    ensures HandleApuesta(p, args, env).actions == Attempts(ConfigErrorText, env.deliver)
    ensures Begins(HandleApuesta(p, args, env).actions, Send(ConfigErrorText, Html))
    ensures OnlySends(HandleApuesta(p, args, env).actions, ConfigErrorText)
    ensures Requests(HandleApuesta(p, args, env).actions) == []
    ensures HandleApuesta(p, args, env).escaped.Some? ==> HandleApuesta(p, args, env).escaped.value.SendRaised?
  {
    ReplyOnly(ConfigErrorText, env);
  }

  /** With anything but three arguments, `/apuesta` answers with the usage text alone. */
  lemma WrongArityRefuses(p: Prompts, args: seq<string>, env: Env)
    requires env.configured && |args| != 3
    ensures HandleApuesta(p, args, env).actions == Attempts(UsageText, env.deliver)
    ensures Begins(HandleApuesta(p, args, env).actions, Send(UsageText, Html))
    ensures OnlySends(HandleApuesta(p, args, env).actions, UsageText)
    ensures Requests(HandleApuesta(p, args, env).actions) == []
    ensures HandleApuesta(p, args, env).escaped.Some? ==> HandleApuesta(p, args, env).escaped.value.SendRaised?
  {
    ReplyOnly(UsageText, env);
  }

  /** `upper()` gives SIMPLE or COMBI exactly for the spellings of those words. */
  lemma KindSpelled(t: string)
    ensures Upper(t) == "SIMPLE" <==> Spells(t, "SIMPLE")
    ensures Upper(t) == "COMBI" <==> Spells(t, "COMBI")
  {
    UpperMatches(t, "SIMPLE");
    UpperMatches(t, "COMBI");
  }

  /** The bet types `/apuesta` accepts: SIMPLE and COMBI spelled in any case. */
  lemma KindAccepted(p: Prompts, t: string)
    ensures SelectPrompt(p, Upper(t)).Some? <==> Spells(t, "SIMPLE") || Spells(t, "COMBI")
  {
    KindSpelled(t);
  }

  /**
   An unknown bet type is answered by a message that quotes it, upper-cased,
   and nothing is formatted or requested.
   */
  lemma UnknownKindRefuses(p: Prompts, args: seq<string>, env: Env)
    requires env.configured && |args| == 3
    requires !Spells(args[0], "SIMPLE") && !Spells(args[0], "COMBI")
    ensures HandleApuesta(p, args, env).actions == Attempts(UnknownTypeText(Upper(args[0])), env.deliver)
    ensures Begins(HandleApuesta(p, args, env).actions, Send(UnknownTypeText(Upper(args[0])), Html))
    ensures OnlySends(HandleApuesta(p, args, env).actions, UnknownTypeText(Upper(args[0])))
    ensures Contains(UnknownTypeText(Upper(args[0])), Upper(args[0]))
    ensures Requests(HandleApuesta(p, args, env).actions) == []
  {
    var kind := Upper(args[0]);
    KindAccepted(p, args[0]);
    ReplyOnly(UnknownTypeText(kind), env);
    var head := "Tipo de apuesta no reconocido: '";
    assert OccursAt(UnknownTypeText(kind), kind, |head|) by {
      assert UnknownTypeText(kind) == head + kind + "'. Usa SIMPLE o COMBI.";
    }
  }

  /** The guarded part asks nothing beyond the calls before it, and keeps their first call first. */
  lemma GuardedShape(asked: seq<Action>, prompt: string, env: Env, from: nat)
    requires Disciplined(asked) && OpensWithMode(asked)
    ensures Keeps(Guarded(asked, prompt, env, from), asked)
  {
    var answer := env.generate(prompt);
    if answer.GenerationFailed? {
      FinishShape(asked, ErrorText(answer.detail), Html, env.deliver, from);
    } else {
      var reply := SendMessage(answer.text, MarkdownV2, env.deliver, from);
      SendShape(asked, answer.text, MarkdownV2, env.deliver, from);
      var replied := asked + reply.actions;
      if reply.failure.Some? {
        FinishShape(replied, ErrorText(reply.failure.value), Html, env.deliver, reply.used);
        KeepsTrans(Guarded(asked, prompt, env, from), replied, asked);
      }
    }
  }

  /**
   The analysis: it opens with the processing notice; the model is asked once,
   for `prompt`, exactly when the notice goes through; every resend follows
   its own first attempt; and only a send can raise out of it.
   */
  lemma AnalyseShape(kind: string, date: string, odds: string, prompt: string, env: Env)
    ensures Keeps(Analyse(kind, date, odds, prompt, env),
      if NoticeDelivered(env.deliver) then [Send(ProcessingText(kind, date, odds), Html), Generate(prompt)]
      else [Send(ProcessingText(kind, date, odds), Html)])
  {
    var text := ProcessingText(kind, date, odds);
    var notice := SendMessage(text, Html, env.deliver, 0);
    SendMessageFails(text, Html, env.deliver, 0);
    if notice.failure.Some? {
      NoticeLostShape(text, prompt, env);
    } else {
      var asked := notice.actions + [Generate(prompt)];
      AskedShape(text, prompt, env.deliver);
      GuardedShape(asked, prompt, env, notice.used);
      assert Requests([Send(text, Html), Generate(prompt)]) == [prompt] by {
        assert [Send(text, Html), Generate(prompt)][1..] == [Generate(prompt)];
        assert [Generate(prompt)][1..] == [];
      }
    }
  }

  lemma NoticeLostShape(text: string, prompt: string, env: Env)
    requires SendMessage(text, Html, env.deliver, 0).failure.Some?
    ensures Keeps(Finish([], SendMessage(text, Html, env.deliver, 0)), [Send(text, Html)])
  {
    var notice := SendMessage(text, Html, env.deliver, 0);
    FinishShape([], text, Html, env.deliver, 0);
    assert Finish([], notice).actions == notice.actions;
    assert Requests([Send(text, Html)]) == [] by {
      assert [Send(text, Html)][1..] == [];
    }
  }

  /** The notice followed by the request. */
  lemma AskedShape(text: string, prompt: string, deliver: nat -> Delivery)
    ensures Disciplined(SendMessage(text, Html, deliver, 0).actions + [Generate(prompt)])
    ensures OpensWithMode(SendMessage(text, Html, deliver, 0).actions + [Generate(prompt)])
    ensures Requests(SendMessage(text, Html, deliver, 0).actions + [Generate(prompt)]) == [prompt]
  {
    var notice := SendMessage(text, Html, deliver, 0);
    SendMessageShape(text, Html, deliver, 0);
    assert Requests([Generate(prompt)]) == [prompt] by {
      assert [Generate(prompt)][1..] == [];
    }
    RequestsAppend(notice.actions, [Generate(prompt)]);
    DisciplinedAppend(notice.actions, [Generate(prompt)]);
  }

  /** Every send goes through: the notice, the request, and the answer or the error report, nothing more. */
  lemma AnalyseDelivered(kind: string, date: string, odds: string, prompt: string, env: Env)
    requires forall k: nat :: env.deliver(k) == Delivered
    ensures env.generate(prompt).Generated? ==>
      Analyse(kind, date, odds, prompt, env) ==
        Run([Send(ProcessingText(kind, date, odds), Html), Generate(prompt),
             Send(env.generate(prompt).text, MarkdownV2)], None)
    ensures env.generate(prompt).GenerationFailed? ==>
      Analyse(kind, date, odds, prompt, env) ==
        Run([Send(ProcessingText(kind, date, odds), Html), Generate(prompt),
             Send(ErrorText(env.generate(prompt).detail), Html)], None)
  {
    assert env.deliver(0) == Delivered && env.deliver(1) == Delivered;
  }

  /** A processing notice refused twice raises out of the handler before the model is asked. */
  lemma AnalyseNoticeLost(kind: string, date: string, odds: string, prompt: string, env: Env)
    requires env.deliver(0).Refused? && env.deliver(1).Refused?
    ensures Analyse(kind, date, odds, prompt, env) ==
      Run([Send(ProcessingText(kind, date, odds), Html), Send(ProcessingText(kind, date, odds), Plain)],
          Some(SendRaised(env.deliver(1).detail)))
  {
  }

  /**
   After the calls `asked`, the run sends the answer `t` in MarkdownV2, then
   as plain text, then the error report with `detail` in HTML.
   */
  predicate ReportedAfterRefusal(run: Run, asked: seq<Action>, t: string, detail: string) {
    && |run.actions| >= |asked| + 3
    && run.actions[..|asked| + 3] == asked + [Send(t, MarkdownV2), Send(t, Plain), Send(ErrorText(detail), Html)]
  }

  /**
   An answer refused in MarkdownV2 and as plain text is caught, whichever
   attempt delivered the notice: the error report, in HTML, carries the
   second refusal's detail, and only the report's own two refusals raise.
   */
  lemma AnalyseReplyRefused(kind: string, date: string, odds: string, prompt: string, env: Env)
    requires NoticeDelivered(env.deliver) && env.generate(prompt).Generated?
    requires var n := |Attempts(ProcessingText(kind, date, odds), env.deliver)|;
      env.deliver(n).Refused? && env.deliver(n + 1).Refused?
    ensures var notice := Attempts(ProcessingText(kind, date, odds), env.deliver);
      var run := Analyse(kind, date, odds, prompt, env);
      && ReportedAfterRefusal(run, notice + [Generate(prompt)], env.generate(prompt).text, env.deliver(|notice| + 1).detail)
      && (run.escaped.Some? <==> env.deliver(|notice| + 2).Refused? && env.deliver(|notice| + 3).Refused?)
  {
    var notice := Attempts(ProcessingText(kind, date, odds), env.deliver);
    AnalyseAfterNotice(kind, date, odds, prompt, env);
    GuardedRefusedReport(notice + [Generate(prompt)], prompt, env, |notice|);
  }

  /** The calls of the guarded part after a reply refused twice, and when the report in turn raises. */
  lemma GuardedRefusedReport(asked: seq<Action>, prompt: string, env: Env, from: nat)
    requires env.generate(prompt).Generated?
    requires env.deliver(from).Refused? && env.deliver(from + 1).Refused?
    ensures ReportedAfterRefusal(Guarded(asked, prompt, env, from), asked, env.generate(prompt).text, env.deliver(from + 1).detail)
    ensures Guarded(asked, prompt, env, from).escaped.Some? <==>
      env.deliver(from + 2).Refused? && env.deliver(from + 3).Refused?
  {
    var t := env.generate(prompt).text;
    var detail := env.deliver(from + 1).detail;
    var replied := asked + [Send(t, MarkdownV2), Send(t, Plain)];
    GuardedReplyRefused(asked, prompt, env, from);
    ReportShape(replied, detail, env, from + 2);
    assert replied + [Send(ErrorText(detail), Html)] ==
      asked + [Send(t, MarkdownV2), Send(t, Plain), Send(ErrorText(detail), Html)];
  }

  /** Once the notice gets through, the analysis is the guarded part after the notice's attempts. */
  lemma AnalyseAfterNotice(kind: string, date: string, odds: string, prompt: string, env: Env)
    requires NoticeDelivered(env.deliver)
    ensures var notice := Attempts(ProcessingText(kind, date, odds), env.deliver);
      Analyse(kind, date, odds, prompt, env) == Guarded(notice + [Generate(prompt)], prompt, env, |notice|)
  {
    var text := ProcessingText(kind, date, odds);
    SendMessageFails(text, Html, env.deliver, 0);
  }

  /**
   In the guarded part, from any attempt: an answer refused in MarkdownV2 and
   as plain text is followed by the error report with the second refusal's detail.
   */
  lemma GuardedReplyRefused(asked: seq<Action>, prompt: string, env: Env, from: nat)
    requires env.generate(prompt).Generated?
    requires env.deliver(from).Refused? && env.deliver(from + 1).Refused?
    ensures var t := env.generate(prompt).text;
      Guarded(asked, prompt, env, from) ==
        Report(asked + [Send(t, MarkdownV2), Send(t, Plain)], env.deliver(from + 1).detail, env, from + 2)
  {
    SendMessageFails(env.generate(prompt).text, MarkdownV2, env.deliver, from);
  }

  /**
   The send right after the request, whatever gets through: the answer in
   MarkdownV2 when the model answers, otherwise the error report.
   */
  lemma GuardedAnswer(asked: seq<Action>, prompt: string, env: Env, from: nat)
    ensures env.generate(prompt).Generated? ==>
      && |Guarded(asked, prompt, env, from).actions| >= |asked| + 1
      && Guarded(asked, prompt, env, from).actions[..|asked| + 1] == asked + [Send(env.generate(prompt).text, MarkdownV2)]
    ensures env.generate(prompt).GenerationFailed? ==>
      Guarded(asked, prompt, env, from) == Report(asked, env.generate(prompt).detail, env, from)
  {
    var answer := env.generate(prompt);
    if answer.Generated? {
      var reply := SendMessage(answer.text, MarkdownV2, env.deliver, from);
      assert (asked + reply.actions)[..|asked| + 1] == asked + [reply.actions[0]];
      if reply.failure.Some? {
        ReportShape(asked + reply.actions, reply.failure.value, env, reply.used);
        var run := Guarded(asked, prompt, env, from);
        assert run.actions[..|asked| + 1] == run.actions[..|asked| + |reply.actions| + 1][..|asked| + 1];
      }
    }
  }

  /** The error report quotes the exception's detail. */
  lemma ErrorNames(detail: string)
    ensures Contains(ErrorText(detail), detail)
  {
    var head := "\U{274C} **Error en la conexi\U{F3}n o procesamiento de la IA.**\n\nDetalles del error: ";
    assert OccursAt(ErrorText(detail), detail, |head|) by {
      assert ErrorText(detail) == head + detail;
    }
  }

  /**
   However the notice got through, the call after the request is the answer in
   MarkdownV2, or the error report in HTML, which quotes the failure's detail.
   */
  lemma AnalyseAnswer(kind: string, date: string, odds: string, prompt: string, env: Env)
    requires NoticeDelivered(env.deliver)
    ensures var notice := Attempts(ProcessingText(kind, date, odds), env.deliver);
      var run := Analyse(kind, date, odds, prompt, env);
      && |run.actions| >= |notice| + 2
      && run.actions[..|notice| + 1] == notice + [Generate(prompt)]
      && (env.generate(prompt).Generated? ==>
            run.actions[|notice| + 1] == Send(env.generate(prompt).text, MarkdownV2))
      && (env.generate(prompt).GenerationFailed? ==>
            && run.actions[|notice| + 1] == Send(ErrorText(env.generate(prompt).detail), Html)
            && Contains(ErrorText(env.generate(prompt).detail), env.generate(prompt).detail))
  {
    var notice := Attempts(ProcessingText(kind, date, odds), env.deliver);
    var asked := notice + [Generate(prompt)];
    AnalyseAfterNotice(kind, date, odds, prompt, env);
    GuardedAnswer(asked, prompt, env, |notice|);
    var run := Guarded(asked, prompt, env, |notice|);
    var answer := env.generate(prompt);
    if answer.GenerationFailed? {
      ReportShape(asked, answer.detail, env, |notice|);
      ErrorNames(answer.detail);
    }
    assert run.actions[..|notice| + 1] == run.actions[..|asked| + 1][..|notice| + 1];
    assert run.actions[|notice| + 1] == run.actions[..|asked| + 1][|asked|];
  }

  /** The error report: one HTML send of the error text after `prefix`, raising exactly when it is refused twice. */
  lemma ReportShape(prefix: seq<Action>, detail: string, env: Env, from: nat)
    ensures |Report(prefix, detail, env, from).actions| >= |prefix| + 1
    ensures Report(prefix, detail, env, from).actions[..|prefix| + 1] == prefix + [Send(ErrorText(detail), Html)]
    ensures Report(prefix, detail, env, from).escaped.Some? <==>
      env.deliver(from).Refused? && env.deliver(from + 1).Refused?
  {
    var s := SendMessage(ErrorText(detail), Html, env.deliver, from);
    SendMessageFails(ErrorText(detail), Html, env.deliver, from);
    assert (prefix + s.actions)[..|prefix| + 1] == prefix + [s.actions[0]];
  }

  /**
   A bet whose prompt template `format` rejects: the exception escapes before
   anything is sent or requested.
   */
  lemma ApuestaFormatRaises(p: Prompts, args: seq<string>, env: Env, base: string)
    requires env.configured && |args| == 3
    requires SelectPrompt(p, Upper(args[0])) == Some(base)
    requires FormatString(base, Keywords(args[1], args[2])).Err?
    ensures HandleApuesta(p, args, env) ==
      Run([], Some(FormatRaised(FormatString(base, Keywords(args[1], args[2])).error)))
  {
  }

  /**
   A bet whose prompt template formats: the processing notice for the
   upper-cased type, the date and the odds goes first, the model is asked for
   the filled-in prompt exactly when that notice gets through, and only a send
   can raise.
   */
  lemma ApuestaFormats(p: Prompts, args: seq<string>, env: Env, base: string, prompt: string)
    requires env.configured && |args| == 3
    requires SelectPrompt(p, Upper(args[0])) == Some(base)
    requires FormatString(base, Keywords(args[1], args[2])) == Ok(prompt)
    ensures Begins(HandleApuesta(p, args, env).actions, Send(ProcessingText(Upper(args[0]), args[1], args[2]), Html))
    ensures Requests(HandleApuesta(p, args, env).actions) == if NoticeDelivered(env.deliver) then [prompt] else []
    ensures HandleApuesta(p, args, env).escaped.Some? ==> HandleApuesta(p, args, env).escaped.value.SendRaised?
  {
    FormattedAnalyses(p, args, env, base, prompt);
    AnalyseShape(Upper(args[0]), args[1], args[2], prompt, env);
    AnalyseRequests(Upper(args[0]), args[1], args[2], prompt, env);
  }

  lemma FormattedAnalyses(p: Prompts, args: seq<string>, env: Env, base: string, prompt: string)
    requires env.configured && |args| == 3
    requires SelectPrompt(p, Upper(args[0])) == Some(base)
    requires FormatString(base, Keywords(args[1], args[2])) == Ok(prompt)
    ensures HandleApuesta(p, args, env) == Analyse(Upper(args[0]), args[1], args[2], prompt, env)
  {
  }

  /** A SIMPLE bet, in any spelling, is analysed with PROMPT_SIMPLE filled in with the date. */
  lemma ApuestaSimple(p: Prompts, args: seq<string>, env: Env)
    requires p.simple == PromptSimple()
    requires env.configured && |args| == 3 && Spells(args[0], "SIMPLE")
    ensures Upper(args[0]) == "SIMPLE"
    ensures HandleApuesta(p, args, env) ==
      Analyse("SIMPLE", args[1], args[2], SimpleHead + args[1] + SimpleTail, env)
  {
    KindSpelled(args[0]);
    SimpleFormats(args[1], args[2]);
    FormattedAnalyses(p, args, env, PromptSimple(), SimpleHead + args[1] + SimpleTail);
  }

  /**
   A COMBI bet, in any spelling, with the prompts as written: `format` raises
   KeyError for the backslashed odds field before anything is sent.
   */
  lemma ApuestaCombiRaises(p: Prompts, args: seq<string>, env: Env)
    requires p.combi == PromptCombi()
    requires env.configured && |args| == 3 && Spells(args[0], "COMBI")
    ensures HandleApuesta(p, args, env) == Run([], Some(FormatRaised(KeyError(OddsKeyEscaped))))
  {
    KindSpelled(args[0]);
    CombiFormatFails(args[1], args[2]);
    ApuestaFormatRaises(p, args, env, PromptCombi());
  }

  /** A COMBI bet with PROMPT_COMBI corrected is analysed with the date and odds filled in. */
  lemma ApuestaCombiIntended(p: Prompts, args: seq<string>, env: Env)
    requires p.combi == PromptCombiIntended()
    requires env.configured && |args| == 3 && Spells(args[0], "COMBI")
    ensures HandleApuesta(p, args, env) ==
      Analyse("COMBI", args[1], args[2],
        CombiHead + args[1] + CombiGoal + args[2] + CombiSummary + args[2] + CombiDateLine + args[1] + CombiTail, env)
  {
    KindSpelled(args[0]);
    CombiIntendedFormats(args[1], args[2]);
    FormattedAnalyses(p, args, env, PromptCombiIntended(),
      CombiHead + args[1] + CombiGoal + args[2] + CombiSummary + args[2] + CombiDateLine + args[1] + CombiTail);
  }

  /** What every run of `handle_apuesta` keeps to, whatever the prompts. */
  lemma ApuestaShape(p: Prompts, args: seq<string>, env: Env)
    ensures Disciplined(HandleApuesta(p, args, env).actions)
    ensures OpensWithMode(HandleApuesta(p, args, env).actions)
    ensures |Requests(HandleApuesta(p, args, env).actions)| <= 1
    ensures HandleApuesta(p, args, env).escaped.Some? && HandleApuesta(p, args, env).escaped.value.SendRaised? ==>
      EndsWithResend(HandleApuesta(p, args, env).actions)
    ensures HandleApuesta(p, args, env).escaped.Some? && HandleApuesta(p, args, env).escaped.value.FormatRaised? ==>
      HandleApuesta(p, args, env).actions == []
  {
    if !env.configured {
      FinishShape([], ConfigErrorText, Html, env.deliver, 0);
    } else if |args| != 3 {
      FinishShape([], UsageText, Html, env.deliver, 0);
    } else {
      var kind := Upper(args[0]);
      var base := SelectPrompt(p, kind);
      if base.None? {
        FinishShape([], UnknownTypeText(kind), Html, env.deliver, 0);
      } else {
        var formatted := FormatString(base.value, Keywords(args[1], args[2]));
        if formatted.Ok? {
          AnalyseShape(kind, args[1], args[2], formatted.value, env);
        }
      }
    }
  }

  /**
   With the prompts as written, the model is asked something exactly for a
   SIMPLE bet with three arguments, a model client and a delivered notice,
   and then once, for PROMPT_SIMPLE filled in with the date.
   */
  lemma ApuestaRequests(p: Prompts, args: seq<string>, env: Env)
    requires p.simple == PromptSimple() && p.combi == PromptCombi()
    ensures Requests(HandleApuesta(p, args, env).actions) ==
      if env.configured && |args| == 3 && Spells(args[0], "SIMPLE") && NoticeDelivered(env.deliver)
      then [SimpleHead + args[1] + SimpleTail] else []
  {
    if !env.configured || |args| != 3 {
      ApuestaRefusedEarly(p, args, env);
    } else if Spells(args[0], "SIMPLE") {
      ApuestaSimpleRequests(p, args, env);
    } else if Spells(args[0], "COMBI") {
      ApuestaCombiRaises(p, args, env);
    } else {
      UnknownKindRefuses(p, args, env);
    }
  }

  lemma ApuestaRefusedEarly(p: Prompts, args: seq<string>, env: Env)
    requires !env.configured || |args| != 3
    ensures Requests(HandleApuesta(p, args, env).actions) == []
  {
    if !env.configured {
      UnconfiguredRefuses(p, args, env);
    } else {
      WrongArityRefuses(p, args, env);
    }
  }

  lemma ApuestaSimpleRequests(p: Prompts, args: seq<string>, env: Env)
    requires p.simple == PromptSimple()
    requires env.configured && |args| == 3 && Spells(args[0], "SIMPLE")
    ensures Requests(HandleApuesta(p, args, env).actions) ==
      if NoticeDelivered(env.deliver) then [SimpleHead + args[1] + SimpleTail] else []
  {
    var prompt := SimpleHead + args[1] + SimpleTail;
    ApuestaSimple(p, args, env);
    AnalyseRequests("SIMPLE", args[1], args[2], prompt, env);
  }

  lemma AnalyseRequests(kind: string, date: string, odds: string, prompt: string, env: Env)
    ensures Requests(Analyse(kind, date, odds, prompt, env).actions) ==
      if NoticeDelivered(env.deliver) then [prompt] else []
  {
    AnalyseShape(kind, date, odds, prompt, env);
    if NoticeDelivered(env.deliver) {
      assert Requests([Send(ProcessingText(kind, date, odds), Html), Generate(prompt)]) == [prompt] by {
        assert [Send(ProcessingText(kind, date, odds), Html), Generate(prompt)][1..] == [Generate(prompt)];
        assert [Generate(prompt)][1..] == [];
      }
    } else {
      assert Requests([Send(ProcessingText(kind, date, odds), Html)]) == [] by {
        assert [Send(ProcessingText(kind, date, odds), Html)][1..] == [];
      }
    }
  }

  /**
   With PROMPT_COMBI corrected, COMBI bets are analysed too, with their own
   filled-in prompt.
   */
  lemma ApuestaRequestsIntended(p: Prompts, args: seq<string>, env: Env)
    requires p.simple == PromptSimple() && p.combi == PromptCombiIntended()
    ensures Requests(HandleApuesta(p, args, env).actions) ==
      if env.configured && |args| == 3 && Spells(args[0], "SIMPLE") && NoticeDelivered(env.deliver)
      then [SimpleHead + args[1] + SimpleTail]
      else if env.configured && |args| == 3 && Spells(args[0], "COMBI") && NoticeDelivered(env.deliver)
      then [CombiHead + args[1] + CombiGoal + args[2] + CombiSummary + args[2] + CombiDateLine + args[1] + CombiTail]
      else []
  {
    if !env.configured || |args| != 3 {
      ApuestaRefusedEarly(p, args, env);
    } else if Spells(args[0], "SIMPLE") {
      ApuestaSimpleRequests(p, args, env);
    } else if Spells(args[0], "COMBI") {
      ApuestaCombiRequests(p, args, env);
    } else {
      UnknownKindRefuses(p, args, env);
    }
  }

  lemma ApuestaCombiRequests(p: Prompts, args: seq<string>, env: Env)
    requires p.combi == PromptCombiIntended()
    requires env.configured && |args| == 3 && Spells(args[0], "COMBI")
    ensures Requests(HandleApuesta(p, args, env).actions) ==
      if NoticeDelivered(env.deliver)
      then [CombiHead + args[1] + CombiGoal + args[2] + CombiSummary + args[2] + CombiDateLine + args[1] + CombiTail]
      else []
  {
    var prompt := CombiHead + args[1] + CombiGoal + args[2] + CombiSummary + args[2] + CombiDateLine + args[1] + CombiTail;
    ApuestaCombiIntended(p, args, env);
    AnalyseRequests("COMBI", args[1], args[2], prompt, env);
  }

  /** An update gets no call and no exception exactly when it is not a command the bot knows. */
  lemma SilentIffIgnored(p: Prompts, u: Update, env: Env)
    ensures HandleUpdateWith(p, u, env) == Run([], None) <==> RouteOf(u) == Ignore
  {
    match RouteOf(u)
    case Ignore =>
    case Start(name) =>
      ReplyOnly(WelcomeText(name), env);
    case Apuesta(args) =>
      ApuestaNotSilent(p, args, env);
  }

  lemma ApuestaNotSilent(p: Prompts, args: seq<string>, env: Env)
    ensures HandleApuesta(p, args, env) != Run([], None)
  {
    if !env.configured {
      ReplyOnly(ConfigErrorText, env);
    } else if |args| != 3 {
      ReplyOnly(UsageText, env);
    } else {
      var kind := Upper(args[0]);
      var base := SelectPrompt(p, kind);
      if base.None? {
        ReplyOnly(UnknownTypeText(kind), env);
      } else {
        var formatted := FormatString(base.value, Keywords(args[1], args[2]));
        if formatted.Ok? {
          AnalyseShape(kind, args[1], args[2], formatted.value, env);
        }
      }
    }
  }

  /** What every run of `handle_update` keeps to, whatever the prompts. */
  lemma UpdateShape(p: Prompts, u: Update, env: Env)
    ensures Disciplined(HandleUpdateWith(p, u, env).actions)
    ensures OpensWithMode(HandleUpdateWith(p, u, env).actions)
    ensures |Requests(HandleUpdateWith(p, u, env).actions)| <= 1
    ensures HandleUpdateWith(p, u, env).escaped.Some? && HandleUpdateWith(p, u, env).escaped.value.SendRaised? ==>
      EndsWithResend(HandleUpdateWith(p, u, env).actions)
  {
    match RouteOf(u)
    case Ignore =>
    case Start(name) =>
      FinishShape([], WelcomeText(name), Html, env.deliver, 0);
    case Apuesta(args) =>
      ApuestaShape(p, args, env);
  }

  /**
   With the prompts as written, `handle_update` asks the model something
   exactly for an `/apuesta` SIMPLE command with three arguments, a model
   client and a delivered notice.
   */
  lemma UpdateRequests(u: Update, env: Env)
    ensures Requests(HandleUpdate(u, env).actions) != [] <==>
      && RouteOf(u).Apuesta? && env.configured && |RouteOf(u).args| == 3
      && Spells(RouteOf(u).args[0], "SIMPLE") && NoticeDelivered(env.deliver)
  {
    match RouteOf(u)
    case Ignore =>
    case Start(name) =>
      ReplyOnly(WelcomeText(name), env);
    case Apuesta(args) =>
      ApuestaRequests(SourcePrompts(), args, env);
  }

  /** The words of a command: `/apuesta` and its arguments, one space apart. */
  function Command(args: seq<string>): string {
    Join(["/apuesta"] + args, " ")
  }

  /** An update carrying `text` from the user `name`. */
  function TextUpdate(text: string, name: string): Update {
    Update(Some(Message(Some(text), name)))
  }

  /** A text that reads as `/apuesta` once stripped and lower-cased goes to `handle_apuesta` with the words after the first. */
  lemma RouteOfApuesta(text: string, name: string)
    requires text != []
    requires StartsWith(Lower(Strip(text)), "/apuesta") && !StartsWith(Lower(Strip(text)), "/start")
    ensures RouteOf(TextUpdate(text, name)) == Apuesta(AfterCommand(Split(Strip(text))))
  {
  }

  /**
   Routing recovers the arguments of an `/apuesta` command written out with
   single spaces: the arguments `handle_apuesta` gets are the words typed.
   */
  lemma RouteOfCommand(args: seq<string>, name: string)
    requires forall k :: 0 <= k < |args| ==> IsWord(args[k])
    ensures RouteOf(TextUpdate(Command(args), name)) == Apuesta(args)
  {
    CommandClean(args);
    CommandRead(args);
    LowerKeepsCommand(Command(args));
    CommandPrefix(Command(args));
    RouteOfApuesta(Command(args), name);
  }

  /** A command is already stripped and begins with `/apuesta`. */
  lemma CommandClean(args: seq<string>)
    requires forall k :: 0 <= k < |args| ==> IsWord(args[k])
    ensures Strip(Command(args)) == Command(args) && StartsWith(Command(args), "/apuesta")
  {
    CommandAllWords(args);
    CommandEnds(args);
  }

  /** The words of a command after the first are its arguments. */
  lemma CommandRead(args: seq<string>)
    requires forall k :: 0 <= k < |args| ==> IsWord(args[k])
    ensures AfterCommand(Split(Command(args))) == args
  {
    CommandAllWords(args);
    CommandSplit(args);
    assert AfterCommand(["/apuesta"] + args) == args;
  }

  /** Splitting a command gives back `/apuesta` and the arguments. */
  lemma CommandSplit(args: seq<string>)
    requires forall k :: 0 <= k < |["/apuesta"] + args| ==> IsWord((["/apuesta"] + args)[k])
    ensures Split(Command(args)) == ["/apuesta"] + args
  {
    assert AllSpace(" ") by { assert IsSpace(" "[0]); }
    SplitJoin(["/apuesta"] + args, " ");
  }

  lemma CommandAllWords(args: seq<string>)
    requires forall k :: 0 <= k < |args| ==> IsWord(args[k])
    ensures forall k :: 0 <= k < |["/apuesta"] + args| ==> IsWord((["/apuesta"] + args)[k])
    ensures AllSpace(" ") && " " != []
  {
    assert IsWord("/apuesta") by {
      assert forall i :: 0 <= i < |"/apuesta"| ==> !IsSpace("/apuesta"[i]);
    }
    ConsWords("/apuesta", args);
  }

  /** A command begins with `/apuesta` and ends in a word, so stripping leaves it alone. */
  lemma CommandEnds(args: seq<string>)
    requires forall k :: 0 <= k < |["/apuesta"] + args| ==> IsWord((["/apuesta"] + args)[k])
    ensures Strip(Command(args)) == Command(args)
    ensures StartsWith(Command(args), "/apuesta")
  {
    var words := ["/apuesta"] + args;
    JoinEnds(words, " ");
    assert IsWord(words[|words| - 1]);
    assert !IsSpace('/');
    StripClean(Command(args));
  }

  /** A text that starts with `/apuesta` in any letter case is not taken for `/start`. */
  lemma CommandPrefix(t: string)
    requires StartsWith(Lower(t), "/apuesta")
    ensures !StartsWith(Lower(t), "/start")
  {
    assert Lower(t)[..8][1] == 'a';
  }

  /** Lower-casing leaves a lower-case `/apuesta` prefix in place. */
  lemma LowerKeepsCommand(t: string)
    requires StartsWith(t, "/apuesta")
    ensures StartsWith(Lower(t), "/apuesta")
  {
    forall i | 0 <= i < 8 ensures Lower(t)[i] == "/apuesta"[i] {
      assert t[i] == t[..8][i];
    }
    assert Lower(t)[..8] == "/apuesta";
  }

  /** Three words after `/apuesta`, one space apart. */
  lemma CommandText(a: string, b: string, c: string)
    ensures Command([a, b, c]) == "/apuesta " + a + " " + b + " " + c
  {
    var w := ["/apuesta", a, b, c];
    assert w[1..] == [a, b, c] && w[1..][1..] == [b, c] && w[1..][1..][1..] == [c];
    assert Join([b, c], " ") == b + " " + c;
    assert Join([a, b, c], " ") == a + " " + (b + " " + c);
    assert Command([a, b, c]) == "/apuesta" + " " + (a + " " + (b + " " + c));
  }

  /**
   `/apuesta SIMPLE <date> <odds>` with everything delivered: the notice, the
   request for PROMPT_SIMPLE with the date, and the model's answer.
   */
  lemma ScenarioSimple(date: string, odds: string, name: string, env: Env, answer: string)
    requires IsWord(date) && IsWord(odds)
    requires env.configured && forall k: nat :: env.deliver(k) == Delivered
    requires env.generate(SimpleHead + date + SimpleTail) == Generated(answer)
    ensures HandleUpdate(TextUpdate(Command(["SIMPLE", date, odds]), name), env) ==
      Run([Send(ProcessingText("SIMPLE", date, odds), Html),
           Generate(SimpleHead + date + SimpleTail),
           Send(answer, MarkdownV2)], None)
  {
    UpdateSimple(date, odds, name, env);
    AnalyseDelivered("SIMPLE", date, odds, SimpleHead + date + SimpleTail, env);
  }

  /** A configured `/apuesta SIMPLE <date> <odds>` goes to the analysis with PROMPT_SIMPLE filled in. */
  lemma UpdateSimple(date: string, odds: string, name: string, env: Env)
    requires IsWord(date) && IsWord(odds) && env.configured
    ensures HandleUpdate(TextUpdate(Command(["SIMPLE", date, odds]), name), env) ==
      Analyse("SIMPLE", date, odds, SimpleHead + date + SimpleTail, env)
  {
    SimpleIsWord();
    UpdateCommand3(SourcePrompts(), "SIMPLE", date, odds, name, env);
    ApuestaSimple(SourcePrompts(), ["SIMPLE", date, odds], env);
  }

  lemma SimpleIsWord()
    ensures IsWord("SIMPLE") && Spells("SIMPLE", "SIMPLE")
  {
  }

  lemma CombiIsWord()
    ensures IsWord("COMBI") && Spells("COMBI", "COMBI")
  {
  }

  /** `/apuesta COMBI <date> <odds>` with the prompts as written: KeyError, and nothing is sent. */
  lemma ScenarioCombi(date: string, odds: string, name: string, env: Env)
    requires IsWord(date) && IsWord(odds) && env.configured
    ensures HandleUpdate(TextUpdate(Command(["COMBI", date, odds]), name), env) ==
      Run([], Some(FormatRaised(KeyError("CUOTA\\_OBJETIVO"))))
  {
    CombiIsWord();
    UpdateCommand3(SourcePrompts(), "COMBI", date, odds, name, env);
    ApuestaCombiRaises(SourcePrompts(), ["COMBI", date, odds], env);
  }

  /** The same command with PROMPT_COMBI corrected is analysed. */
  lemma ScenarioCombiIntended(date: string, odds: string, name: string, env: Env, answer: string)
    requires IsWord(date) && IsWord(odds)
    requires env.configured && forall k: nat :: env.deliver(k) == Delivered
    requires env.generate(CombiHead + date + CombiGoal + odds + CombiSummary + odds + CombiDateLine + date + CombiTail)
      == Generated(answer)
    ensures HandleUpdateWith(IntendedPrompts(), TextUpdate(Command(["COMBI", date, odds]), name), env) ==
      Run([Send(ProcessingText("COMBI", date, odds), Html),
           Generate(CombiHead + date + CombiGoal + odds + CombiSummary + odds + CombiDateLine + date + CombiTail),
           Send(answer, MarkdownV2)], None)
  {
    UpdateCombiIntended(date, odds, name, env);
    AnalyseDelivered("COMBI", date, odds,
      CombiHead + date + CombiGoal + odds + CombiSummary + odds + CombiDateLine + date + CombiTail, env);
  }

  /** With PROMPT_COMBI corrected, a configured `/apuesta COMBI <date> <odds>` goes to the analysis. */
  lemma UpdateCombiIntended(date: string, odds: string, name: string, env: Env)
    requires IsWord(date) && IsWord(odds) && env.configured
    ensures HandleUpdateWith(IntendedPrompts(), TextUpdate(Command(["COMBI", date, odds]), name), env) ==
      Analyse("COMBI", date, odds,
        CombiHead + date + CombiGoal + odds + CombiSummary + odds + CombiDateLine + date + CombiTail, env)
  {
    CombiIsWord();
    UpdateCommand3(IntendedPrompts(), "COMBI", date, odds, name, env);
    ApuestaCombiIntended(IntendedPrompts(), ["COMBI", date, odds], env);
  }

  /** `/apuesta` and three words, one space apart, is handled by `handle_apuesta` with those words. */
  lemma UpdateCommand3(p: Prompts, kind: string, date: string, odds: string, name: string, env: Env)
    requires IsWord(kind) && IsWord(date) && IsWord(odds)
    ensures HandleUpdateWith(p, TextUpdate(Command([kind, date, odds]), name), env) == HandleApuesta(p, [kind, date, odds], env)
  {
    var args := [kind, date, odds];
    RouteOfCommand(args, name);
    DispatchApuesta(p, TextUpdate(Command(args), name), args, env);
  }

  /** An update routed to `/apuesta` is handled by `handle_apuesta` alone. */
  lemma DispatchApuesta(p: Prompts, u: Update, args: seq<string>, env: Env)
    requires RouteOf(u) == Apuesta(args)
    ensures HandleUpdateWith(p, u, env) == HandleApuesta(p, args, env)
  {
  }

  /** A bare `/apuesta` gets the usage text. */
  lemma ScenarioBareCommand(env: Env)
    requires env.configured
    ensures HandleUpdate(TextUpdate("/apuesta", ""), env).actions == Attempts(UsageText, env.deliver)
    ensures Begins(HandleUpdate(TextUpdate("/apuesta", ""), env).actions, Send(UsageText, Html))
    ensures OnlySends(HandleUpdate(TextUpdate("/apuesta", ""), env).actions, UsageText)
  {
    assert HandleUpdate(TextUpdate("/apuesta", ""), env) == HandleApuesta(SourcePrompts(), [], env) by {
      BareCommand();
      RouteOfCommand([], "");
      DispatchApuesta(SourcePrompts(), TextUpdate("/apuesta", ""), [], env);
    }
    WrongArityRefuses(SourcePrompts(), [], env);
  }

  lemma BareCommand()
    ensures Command([]) == "/apuesta"
  {
    assert ["/apuesta"] + [] == ["/apuesta"];
  }

  /** A text that reads as `/start` once stripped and lower-cased goes to `handle_start` with the sender's first name. */
  lemma RouteOfStart(text: string, name: string)
    requires text != [] && StartsWith(Lower(Strip(text)), "/start")
    ensures RouteOf(TextUpdate(text, name)) == Start(name)
  {
  }

  /** `/START` and `/startxyz` both reach `handle_start`: the test is a case-insensitive prefix test. */
  lemma ScenarioStart(name: string)
    ensures RouteOf(TextUpdate("/START", name)) == Start(name)
    ensures RouteOf(TextUpdate("/startxyz", name)) == Start(name)
  {
    StartClean("/START");
    RouteOfStart("/START", name);
    StartClean("/startxyz");
    RouteOfStart("/startxyz", name);
  }

  /** ` /Start now` followed by a newline reaches `handle_start`: the text is stripped first. */
  lemma ScenarioStartPadded(name: string)
    ensures RouteOf(TextUpdate(" /Start now\n", name)) == Start(name)
  {
    StartClean("/Start now");
    assert Strip(" /Start now\n") == "/Start now" by {
      assert " /Start now\n" == " " + "/Start now" + "\n";
      assert AllSpace(" ") by { assert IsSpace(" "[0]); }
      assert AllSpace("\n") by { assert IsSpace("\n"[0]); }
      StripPadded(" ", "/Start now", "\n");
    }
    RouteOfStart(" /Start now\n", name);
  }

  /** A text with no whitespace at either end whose first six characters lower-case to `/start`. */
  lemma StartClean(t: string)
    requires |t| >= 6 && !IsSpace(t[0]) && !IsSpace(t[|t| - 1])
    requires forall i :: 0 <= i < 6 ==> LowerChar(t[i]) == "/start"[i]
    ensures StartsWith(Lower(Strip(t)), "/start")
  {
    StripClean(t);
    LowerStartsWith(t, "/start");
  }
}

=== FILE: text.dfy ===
/**
 The pieces of Python's `str` API that the command front end uses:
 `strip()`, `split()` with no separator, and the case mappings behind
 `lower()` and `upper()`.
 */
module Text {

  /** Python's `str.isspace()`: the characters `strip()` and `split()` treat as whitespace. */
  predicate IsSpace(c: char) {
    || c == ' '
    || ('\U{9}' <= c <= '\U{D}')
    || ('\U{1C}' <= c <= '\U{1F}')
    || c == '\U{85}' || c == '\U{A0}' || c == '\U{1680}'
    || ('\U{2000}' <= c <= '\U{200A}')
    || c == '\U{2028}' || c == '\U{2029}' || c == '\U{202F}' || c == '\U{205F}' || c == '\U{3000}'
  }

  predicate AllSpace(s: string) {
    forall i :: 0 <= i < |s| ==> IsSpace(s[i])
  }

  predicate NoSpace(s: string) {
    forall i :: 0 <= i < |s| ==> !IsSpace(s[i])
  }

  /** A token `split()` can produce: non-empty and free of whitespace. */
  predicate IsWord(w: string) {
    |w| > 0 && NoSpace(w)
  }

  predicate StartsWith(s: string, prefix: string) {
    |prefix| <= |s| && s[..|prefix|] == prefix
  }

  /** `p` occurs in `s` starting at position `i`. */
  predicate OccursAt(s: string, p: string, i: int) {
    0 <= i <= |s| - |p| && s[i..i + |p|] == p
  }

  /** `p` occurs somewhere inside `s`. */
  predicate Contains(s: string, p: string) {
    exists i :: 0 <= i <= |s| - |p| && OccursAt(s, p, i)
  }

  /** `s` is `r` with only whitespace before (the first `i` characters) and after it. */
  predicate Framed(s: string, r: string, i: int) {
    OccursAt(s, r, i) && AllSpace(s[..i]) && AllSpace(s[i + |r|..])
  }

  /** Drops the leading whitespace of `s`. */
  function TrimStart(s: string): (r: string)
    ensures |r| <= |s| && r == s[|s| - |r|..]
    ensures |r| > 0 ==> !IsSpace(r[0])
  {
    if |s| > 0 && IsSpace(s[0]) then TrimStart(s[1..]) else s
  }

  /** Drops the trailing whitespace of `s`. */
  function TrimEnd(s: string): (r: string)
    ensures |r| <= |s| && r == s[..|r|]
    ensures |r| > 0 ==> !IsSpace(r[|r| - 1])
  {
    if |s| > 0 && IsSpace(s[|s| - 1]) then TrimEnd(s[..|s| - 1]) else s
  }

  /** What `TrimStart` drops is whitespace. */
  lemma {:induction false} TrimStartDropsSpace(s: string)
    ensures AllSpace(s[..|s| - |TrimStart(s)|])
    decreases |s|
  {
    if |s| > 0 && IsSpace(s[0]) {
      var d, e := s[..|s| - |TrimStart(s)|], s[1..][..|s| - 1 - |TrimStart(s[1..])|];
      TrimStartDropsSpace(s[1..]);
      assert |d| == |e| + 1;
      forall i | 0 <= i < |d|
        ensures IsSpace(d[i])
      {
        if i > 0 {
          assert d[i] == e[i - 1];
        }
      }
    }
  }

  /** What `TrimEnd` drops is whitespace. */
  lemma {:induction false} TrimEndDropsSpace(s: string)
    ensures AllSpace(s[|TrimEnd(s)|..])
    decreases |s|
  {
    if |s| > 0 && IsSpace(s[|s| - 1]) {
      var p := s[..|s| - 1];
      TrimEndDropsSpace(p);
      assert s[|TrimEnd(s)|..] == p[|TrimEnd(p)|..] + [s[|s| - 1]];
    }
  }

  /** Python's `s.strip()`: `s` is the result framed by whitespace on both sides. */
  function Strip(s: string): (r: string)
    ensures exists i :: Framed(s, r, i)
    ensures |r| > 0 ==> !IsSpace(r[0]) && !IsSpace(r[|r| - 1])
    ensures r == [] <==> AllSpace(s)
  {
    var t := TrimStart(s);
    var r := TrimEnd(t);
    TrimStartDropsSpace(s);
    TrimEndDropsSpace(t);
    StripFrames(s, t, r);
    r
  }

  /** `t` is `s` without leading whitespace, and `r` is `t` without trailing whitespace. */
  lemma StripFrames(s: string, t: string, r: string)
    requires |t| <= |s| && t == s[|s| - |t|..] && AllSpace(s[..|s| - |t|])
    requires |r| <= |t| && r == t[..|r|] && AllSpace(t[|r|..])
    requires |r| > 0 ==> !IsSpace(r[0])
    ensures Framed(s, r, |s| - |t|)
    ensures r == [] <==> AllSpace(s)
  {
    var i := |s| - |t|;
    assert s[i..i + |r|] == r;
    assert s[i + |r|..] == t[|r|..];
    if r == [] {
      assert s == s[..i] + t;
    } else {
      assert s[i] == r[0];
    }
  }

  /** `s` is whitespace only exactly when nothing is left after its leading whitespace. */
  lemma LeadingSpace(s: string, t: string)
    requires |t| <= |s| && t == s[|s| - |t|..] && AllSpace(s[..|s| - |t|])
    requires |t| > 0 ==> !IsSpace(t[0])
    ensures t == [] <==> AllSpace(s)
  {
    if t == [] {
      assert s == s[..|s|];
    } else {
      assert s[|s| - |t|] == t[0];
    }
  }

  /** The longest whitespace-free prefix of `s`. */
  function Word(s: string): (w: string)
    ensures |w| <= |s| && w == s[..|w|]
    ensures NoSpace(w)
    ensures |w| < |s| ==> IsSpace(s[|w|])
  {
    if |s| == 0 || IsSpace(s[0]) then [] else [s[0]] + Word(s[1..])
  }

  /** Python's `s.split()`: the maximal runs of non-whitespace characters, in order. */
  function Split(s: string): (r: seq<string>)
    ensures forall k :: 0 <= k < |r| ==> IsWord(r[k])
    ensures r == [] <==> AllSpace(s)
    decreases |s|
  {
    var t := TrimStart(s);
    TrimStartDropsSpace(s);
    LeadingSpace(s, t);
    if t == [] then []
    else
      var w := Word(t);
      var rest := Split(t[|w|..]);
      ConsWords(w, rest);
      [w] + rest
  }

  lemma ConsWords(w: string, ws: seq<string>)
    requires IsWord(w)
    requires forall k :: 0 <= k < |ws| ==> IsWord(ws[k])
    ensures forall k :: 0 <= k < |[w] + ws| ==> IsWord(([w] + ws)[k])
  {
    forall k | 0 <= k < |[w] + ws|
      ensures IsWord(([w] + ws)[k])
    {
      if k > 0 {
        assert ([w] + ws)[k] == ws[k - 1];
      }
    }
  }

  /** Python's `sep.join(words)`. */
  function Join(words: seq<string>, sep: string): (r: string)
    ensures |words| == 1 ==> r == words[0]
  {
    if |words| == 0 then []
    else if |words| == 1 then words[0]
    else words[0] + sep + Join(words[1..], sep)
  }

  /** `lower()` on one character, ASCII letters only. */
  function LowerChar(c: char): char {
    if 'A' <= c <= 'Z' then (c as int + 32) as char else c
  }

  /**
   `upper()` on one character: the ASCII letters, plus the two non-ASCII letters
   whose upper case is an ASCII letter (dotless i and long s).
   */
  function UpperChar(c: char): char {
    if 'a' <= c <= 'z' then (c as int - 32) as char
    else if c == '\U{131}' then 'I'
    else if c == '\U{17F}' then 'S'
    else c
  }

  function Lower(s: string): (r: string)
    ensures |r| == |s|
    ensures forall i :: 0 <= i < |s| ==> r[i] == LowerChar(s[i])
  {
    seq(|s|, i requires 0 <= i < |s| => LowerChar(s[i]))
  }

  function Upper(s: string): (r: string)
    ensures |r| == |s|
    ensures forall i :: 0 <= i < |s| ==> r[i] == UpperChar(s[i])
  {
    seq(|s|, i requires 0 <= i < |s| => UpperChar(s[i]))
  }

  /** Leading whitespace never changes where the first word starts. */
  lemma {:induction false} TrimStartSkips(sp: string, x: string)
    requires AllSpace(sp)
    ensures TrimStart(sp + x) == TrimStart(x)
    decreases |sp|
  {
    if sp != [] {
      assert IsSpace((sp + x)[0]);
      assert (sp + x)[1..] == sp[1..] + x;
      TrimStartSkips(sp[1..], x);
    } else {
      assert sp + x == x;
    }
  }

  /** Once a non-blank character is reached, trimming stops and what follows is kept. */
  lemma {:induction false} TrimStartAppend(x: string, y: string)
    requires TrimStart(x) != []
    ensures TrimStart(x + y) == TrimStart(x) + y
    decreases |x|
  {
    if IsSpace(x[0]) {
      assert (x + y)[1..] == x[1..] + y;
      TrimStartAppend(x[1..], y);
    }
  }

  /** A word ends at the first whitespace character, or at the end of the text. */
  lemma {:induction false} WordAppend(t: string, y: string)
    requires |Word(t)| < |t| || y == [] || IsSpace(y[0])
    ensures Word(t + y) == Word(t)
    decreases |t|
  {
    if t == [] {
    } else if IsSpace(t[0]) {
    } else {
      assert (t + y)[1..] == t[1..] + y;
      WordAppend(t[1..], y);
    }
  }

  /** `split()` ignores leading whitespace. */
  lemma SplitSkipsLeading(sp: string, x: string)
    requires AllSpace(sp)
    ensures Split(sp + x) == Split(x)
  {
    TrimStartSkips(sp, x);
  }

  /** One step of `split()`: the first word after the leading whitespace, then the rest. */
  lemma SplitStep(s: string)
    requires TrimStart(s) != []
    ensures Split(s) == [Word(TrimStart(s))] + Split(TrimStart(s)[|Word(TrimStart(s))|..])
  {
  }

  /** Whitespace on the right of a word-bearing text changes neither its first word nor where it ends. */
  lemma StepAppend(x: string, sp: string)
    requires AllSpace(sp) && TrimStart(x) != []
    ensures TrimStart(x + sp) != []
    ensures Word(TrimStart(x + sp)) == Word(TrimStart(x))
    ensures TrimStart(x + sp)[|Word(TrimStart(x))|..] == TrimStart(x)[|Word(TrimStart(x))|..] + sp
  {
    var t := TrimStart(x);
    TrimStartAppend(x, sp);
    WordAppend(t, sp);
    assert (t + sp)[|Word(t)|..] == t[|Word(t)|..] + sp;
  }

  /** `split()` ignores trailing whitespace. */
  lemma {:induction false} SplitIgnoresTrailing(x: string, sp: string)
    requires AllSpace(sp)
    ensures Split(x + sp) == Split(x)
    decreases |x|
  {
    var t := TrimStart(x);
    if t == [] {
      TrimStartDropsSpace(x);
      AllSpaceAppend(x, sp);
    } else {
      var w := Word(t);
      StepAppend(x, sp);
      SplitStep(x);
      SplitStep(x + sp);
      SplitIgnoresTrailing(t[|w|..], sp);
    }
  }

  lemma AllSpaceAppend(x: string, sp: string)
    requires TrimStart(x) == [] && AllSpace(sp)
    ensures AllSpace(x + sp) && AllSpace(x)
  {
    TrimStartDropsSpace(x);
    assert x == x[..|x|];
  }

  /** The whitespace `strip()` removes on either side. */
  lemma StripPieces(s: string) returns (lead: string, tail: string)
    ensures AllSpace(lead) && AllSpace(tail)
    ensures s == lead + (Strip(s) + tail)
  {
    var t := TrimStart(s);
    var r := TrimEnd(t);
    TrimStartDropsSpace(s);
    TrimEndDropsSpace(t);
    lead, tail := s[..|s| - |t|], t[|r|..];
    assert t == r + tail;
    assert s == lead + t;
  }

  /** Stripping first, as the dispatcher does, does not change the tokens. */
  lemma SplitOfStrip(s: string)
    ensures Split(Strip(s)) == Split(s)
  {
    var lead, tail := StripPieces(s);
    SplitSkipsLeading(lead, Strip(s) + tail);
    SplitIgnoresTrailing(Strip(s), tail);
  }

  /** A word followed by whitespace (or nothing) is split off as the first token. */
  lemma SplitConsWord(w: string, y: string)
    requires IsWord(w)
    requires y == [] || IsSpace(y[0])
    ensures Split(w + y) == [w] + Split(y)
  {
    var s := w + y;
    assert s[0] == w[0];
    assert TrimStart(s) == s;
    WordOfWord(w);
    WordAppend(w, y);
    assert s[|w|..] == y;
  }

  /** Joining words with any whitespace separator and splitting again gives the words back. */
  lemma {:induction false} SplitJoin(words: seq<string>, sep: string)
    requires forall k :: 0 <= k < |words| ==> IsWord(words[k])
    requires sep != [] && AllSpace(sep)
    ensures Split(Join(words, sep)) == words
    decreases |words|
  {
    if |words| == 1 {
      assert words[0] + [] == words[0];
      SplitConsWord(words[0], []);
    } else if |words| > 1 {
      var rest := Join(words[1..], sep);
      assert Join(words, sep) == words[0] + (sep + rest);
      calc {
        Split(Join(words, sep));
      ==
        Split(words[0] + (sep + rest));
      == { SplitConsWord(words[0], sep + rest); }
        [words[0]] + Split(sep + rest);
      == { SplitSkipsLeading(sep, rest); }
        [words[0]] + Split(rest);
      == { SplitJoin(words[1..], sep); }
        [words[0]] + words[1..];
      ==
        words;
      }
    }
  }

  /** `words` laid out between whitespace gaps: `gaps[0] + words[0] + gaps[1] + … + words[n - 1] + gaps[n]`. */
  function Spaced(words: seq<string>, gaps: seq<string>): (s: string)
    requires |gaps| == |words| + 1
    decreases |words|
  {
    if words == [] then gaps[0] else gaps[0] + words[0] + Spaced(words[1..], gaps[1..])
  }

  /** `n + 1` gaps `split()` reads as separators: whitespace only, and non-empty between two words. */
  predicate Gaps(gaps: seq<string>, n: nat) {
    && |gaps| == n + 1
    && (forall k :: 0 <= k < |gaps| ==> AllSpace(gaps[k]))
    && (forall k :: 0 < k < n ==> gaps[k] != [])
  }

  lemma GapsTail(gaps: seq<string>, n: nat)
    requires n > 0 && Gaps(gaps, n)
    ensures Gaps(gaps[1..], n - 1)
  {
    assert forall k :: 0 <= k < n ==> gaps[1..][k] == gaps[k + 1];
  }

  /** What follows the first word of a layout is empty or begins with whitespace. */
  lemma SpacedAfterWord(words: seq<string>, gaps: seq<string>)
    requires |words| > 0 && Gaps(gaps, |words|)
    ensures var r := Spaced(words[1..], gaps[1..]); r == [] || IsSpace(r[0])
  {
    var r := Spaced(words[1..], gaps[1..]);
    if gaps[1] != [] {
      assert IsSpace(gaps[1][0]);
      assert r[0] == gaps[1][0];
    } else {
      assert |words| == 1;
      assert r == gaps[1];
    }
  }

  /** Any whitespace layout of words, with separators of any length and kind, splits back into the words. */
  lemma {:induction false} SplitSpaced(words: seq<string>, gaps: seq<string>)
    requires forall k :: 0 <= k < |words| ==> IsWord(words[k])
    requires Gaps(gaps, |words|)
    ensures Split(Spaced(words, gaps)) == words
    decreases |words|, 1
  {
    if words != [] {
      SplitSpacedTail(words, gaps);
      SplitSpacedStep(words, gaps);
      assert words == [words[0]] + words[1..];
    }
  }

  /** The layout after the first word splits back into the other words. */
  lemma {:induction false} SplitSpacedTail(words: seq<string>, gaps: seq<string>)
    requires |words| > 0 && forall k :: 0 <= k < |words| ==> IsWord(words[k])
    requires Gaps(gaps, |words|)
    ensures Split(Spaced(words[1..], gaps[1..])) == words[1..]
    decreases |words|, 0
  {
    GapsTail(gaps, |words|);
    assert forall k :: 0 <= k < |words| - 1 ==> words[1..][k] == words[k + 1];
    SplitSpaced(words[1..], gaps[1..]);
  }

  /** The first word of a layout is split off first. */
  lemma SplitSpacedStep(words: seq<string>, gaps: seq<string>)
    requires |words| > 0 && IsWord(words[0]) && Gaps(gaps, |words|)
    ensures Split(Spaced(words, gaps)) == [words[0]] + Split(Spaced(words[1..], gaps[1..]))
  {
    var r := Spaced(words[1..], gaps[1..]);
    assert Spaced(words, gaps) == gaps[0] + (words[0] + r);
    SplitSkipsLeading(gaps[0], words[0] + r);
    SpacedAfterWord(words, gaps);
    SplitConsWord(words[0], r);
  }

  /** Every text is a whitespace layout of its own `split()`, so the two lemmas above pin `split()` down. */
  lemma {:induction false} SplitSpacing(s: string) returns (gaps: seq<string>)
    ensures Gaps(gaps, |Split(s)|) && s == Spaced(Split(s), gaps)
    ensures gaps[0] == s[..|s| - |TrimStart(s)|]
    decreases |s|
  {
    if TrimStart(s) == [] {
      gaps := SpacingBlank(s);
    } else {
      var lead, w, rest := NonBlankStep(s);
      var more := SplitSpacing(rest);
      if Split(rest) != [] {
        FirstGap(rest, more[0]);
      }
      gaps := SpacingCons(lead, w, Split(rest), more);
    }
  }

  /** A text that is whitespace only is its own single gap. */
  lemma SpacingBlank(s: string) returns (gaps: seq<string>)
    requires TrimStart(s) == []
    ensures Gaps(gaps, |Split(s)|) && s == Spaced(Split(s), gaps)
    ensures gaps[0] == s[..|s| - |TrimStart(s)|]
  {
    BlankSplit(s);
    gaps := [s];
  }

  lemma BlankSplit(s: string)
    requires TrimStart(s) == []
    ensures AllSpace(s) && Split(s) == [] && s[..|s| - |TrimStart(s)|] == s
  {
    TrimStartDropsSpace(s);
    assert s[..|s|] == s;
  }

  /** The leading whitespace, the first word and what follows it, for a text with a word. */
  lemma NonBlankStep(s: string) returns (lead: string, w: string, rest: string)
    requires TrimStart(s) != []
    ensures lead == s[..|s| - |TrimStart(s)|] && AllSpace(lead)
    ensures IsWord(w) && |rest| < |s| && s == lead + w + rest
    ensures rest == [] || IsSpace(rest[0])
    ensures Split(s) == [w] + Split(rest)
  {
    var t := TrimStart(s);
    TrimStartDropsSpace(s);
    w := Word(t);
    rest := t[|w|..];
    lead := s[..|s| - |t|];
    assert !IsSpace(t[0]) && w == [t[0]] + Word(t[1..]);
    if rest != [] {
      assert t[|w|] == rest[0];
    }
    SplitStep(s);
    SlicePieces(s, t, w);
  }

  /** A text is what comes before its suffix `t`, then the prefix `w` of `t`, then the rest of `t`. */
  lemma SlicePieces(s: string, t: string, w: string)
    requires |t| <= |s| && t == s[|s| - |t|..]
    requires |w| <= |t| && w == t[..|w|]
    ensures s == s[..|s| - |t|] + w + t[|w|..]
  {
    assert t == w + t[|w|..];
    assert s == s[..|s| - |t|] + t;
  }

  /** Leading whitespace that is present is not empty. */
  lemma FirstGap(rest: string, g: string)
    requires Split(rest) != [] && g == rest[..|rest| - |TrimStart(rest)|]
    requires rest == [] || IsSpace(rest[0])
    ensures g != []
  {
    assert rest != [] && IsSpace(rest[0]);
    assert |TrimStart(rest)| < |rest|;
  }

  /** Putting a word and the whitespace before it in front of a layout. */
  lemma SpacingCons(lead: string, w: string, words: seq<string>, more: seq<string>) returns (gaps: seq<string>)
    requires AllSpace(lead) && Gaps(more, |words|)
    requires words != [] ==> more[0] != []
    ensures Gaps(gaps, |words| + 1) && gaps[0] == lead
    ensures Spaced([w] + words, gaps) == lead + w + Spaced(words, more)
  {
    gaps := [lead] + more;
    assert ([w] + words)[1..] == words && gaps[1..] == more;
    assert forall k :: 1 <= k < |gaps| ==> gaps[k] == more[k - 1];
  }

  /** Lower-casing: the text begins with `p` after `lower()` exactly when its first characters lower-case to `p`. */
  lemma LowerStartsWith(t: string, p: string)
    ensures StartsWith(Lower(t), p) <==> |p| <= |t| && forall i :: 0 <= i < |p| ==> LowerChar(t[i]) == p[i]
  {
    if |p| <= |t| && (forall i :: 0 <= i < |p| ==> LowerChar(t[i]) == p[i]) {
      assert Lower(t)[..|p|] == p;
    }
    if StartsWith(Lower(t), p) {
      forall i | 0 <= i < |p| ensures LowerChar(t[i]) == p[i] {
        assert Lower(t)[..|p|][i] == p[i];
      }
    }
  }

  lemma {:induction false} WordOfWord(w: string)
    requires NoSpace(w)
    ensures Word(w) == w
    decreases |w|
  {
    if w != [] {
      WordOfWord(w[1..]);
    }
  }

  /** `t` spells `word` letter by letter in either case, with dotless i for `I` and long s for `S`. */
  predicate Spells(t: string, word: string) {
    |t| == |word| &&
    forall i :: 0 <= i < |t| ==>
      || t[i] == word[i]
      || t[i] == LowerChar(word[i])
      || (word[i] == 'I' && t[i] == '\U{131}')
      || (word[i] == 'S' && t[i] == '\U{17F}')
  }

  /** Which spellings `upper()` turns into a given upper-case ASCII word. */
  lemma UpperMatches(t: string, word: string)
    requires forall i :: 0 <= i < |word| ==> 'A' <= word[i] <= 'Z'
    ensures Upper(t) == word <==> Spells(t, word)
  {
    if |t| == |word| && Upper(t) != word {
      var i :| 0 <= i < |t| && Upper(t)[i] != word[i];
    }
  }

  /** `strip()` leaves a string alone when neither end is whitespace. */
  lemma StripClean(s: string)
    requires s != [] ==> !IsSpace(s[0]) && !IsSpace(s[|s| - 1])
    ensures Strip(s) == s
  {
  }

  /** Trailing whitespace never changes what `TrimEnd` keeps. */
  lemma {:induction false} TrimEndSkips(x: string, sp: string)
    requires AllSpace(sp)
    ensures TrimEnd(x + sp) == TrimEnd(x)
    decreases |sp|
  {
    if sp != [] {
      var y := x + sp;
      var shorter := sp[..|sp| - 1];
      assert IsSpace(y[|y| - 1]);
      assert y[..|y| - 1] == x + shorter;
      assert AllSpace(shorter) by {
        assert forall i :: 0 <= i < |shorter| ==> shorter[i] == sp[i];
      }
      TrimEndSkips(x, shorter);
    } else {
      assert x + sp == x;
    }
  }

  /**
   `strip()` removes exactly the whitespace around a text that neither begins
   nor ends with whitespace: the converse of `Strip`'s framing.
   */
  lemma StripPadded(lead: string, r: string, tail: string)
    requires AllSpace(lead) && AllSpace(tail)
    requires r != [] ==> !IsSpace(r[0]) && !IsSpace(r[|r| - 1])
    ensures Strip(lead + r + tail) == r
  {
    var s := lead + r + tail;
    if r == [] {
      forall i | 0 <= i < |s|
        ensures IsSpace(s[i])
      {
        if i < |lead| {
          assert s[i] == lead[i];
        } else {
          assert s[i] == tail[i - |lead|];
        }
      }
    } else {
      assert s == lead + (r + tail);
      TrimStartSkips(lead, r + tail);
      assert (r + tail)[0] == r[0];
      TrimEndSkips(r, tail);
    }
  }

  /** A joined sequence of non-empty words begins with the first word and ends with the last. */
  lemma {:induction false} JoinEnds(words: seq<string>, sep: string)
    requires |words| > 0
    requires forall k :: 0 <= k < |words| ==> words[k] != []
    ensures StartsWith(Join(words, sep), words[0])
    ensures Join(words, sep) != []
    ensures Join(words, sep)[|Join(words, sep)| - 1] == words[|words| - 1][|words[|words| - 1]| - 1]
    decreases |words|
  {
    if |words| > 1 {
      JoinEnds(words[1..], sep);
      var r := Join(words[1..], sep);
      assert Join(words, sep) == words[0] + (sep + r);
      assert (words[0] + (sep + r))[..|words[0]|] == words[0];
    }
  }
}

=== FILE: wrappers.dfy ===
/** Failure-carrying datatypes shared by the model. */
module Wrappers {

  /** An optional value: Python's `None` versus a present value. */
  datatype Option<+T> = None | Some(value: T)

  /** Either a value or the error that stopped its computation. */
  datatype Result<+R, +E> = Ok(value: R) | Err(error: E)
}
